=== FILE: README.md ===
# Cart service of the storefront, modelled in Dafny

This project models the shopping-cart core of a small e-commerce storefront (an
Express/Sequelize server with a React client).

- **The cart routes.** `server/routes/cart.routes.js` has POST, PUT, DELETE and GET
  routes on `/cart` and `/cart/:id`. They are modelled as pure transitions of the `Cart`
  table. Each handler takes the caller's identity, the request arguments and the table.
  The add handler (and POST as written) also takes the set of existing product ids. Each
  returns the response (status and payload) and the table after the call.
- **Identity.** `getUserIdFromRequest` turns the `Authorization` header into an optional
  user id.
- **Client helpers.** The pure parts of the cart page, the navigation bar and the product
  list are modelled too: the quantity input gate, the total, the badge count, the
  category list and filter, and the role gates.

Modules, one per source file or concern:

| file | module | models |
|---|---|---|
| Wrappers.dfy | `Wrappers` | `Option`, standing in for `null`/`undefined` results |
| JsValues.dfy | `JsValues` | JavaScript values and coercions: truthiness, `Number()`, `isNaN`, `parseInt(s, 10)`, `String(n)` |
| Seqs.dfy | `Seqs` | `filter`, `[...new Set(xs)]` and the summing `reduce` |
| Identity.dfy | `Identity` | `split(' ')` and `getUserIdFromRequest` |
| CartStore.dfy | `CartStore` | the `Cart` table (rows by auto-incremented id), its invariants and the Sequelize calls the routes make |
| CartRoutes.dfy | `CartRoutes` | the six handlers, POST as written, and a dispatcher |
| CartProperties.dfy | `CartProperties` | the cross-call guarantees: invariants, frame, ownership, merge, and scenarios |
| ClientModel.dfy | `ClientModel` | client-side cart items, the user, the dispatched actions |
| CartPage.dfy, Navbar.dfy, ProductsPage.dfy | same names | the pure logic of the three client files |
| ClientFlows.dfy | `ClientFlows` | what the pages send against what the routes accept and do |

Key modelling choices:

- **The table.** It is `Db(lines: map<LineId, CartLine>, nextId)`. `nextId` is the
  auto-increment sequence, so a created row gets a key the table has never used.
- **Looking up by user and product.** Without an `order`, Sequelize's
  `findOne({ where: { userId, productId } })` promises no particular row when several
  match. The model chooses to scan the keys in increasing order and return the lowest
  matching row. The choice does not matter under the invariant `Valid`, where at most
  one row matches. The scan finds every row only while every key is below `nextId`, so
  that fact is part of `Valid`.
- **Uniqueness has no visible database backing.** No unique constraint on
  (userId, productId) is visible in the files modelled. The invariant "one row per user and product" holds only because
  the add handler looks for the row before it creates one. It is proved here for calls
  made one at a time.
- **Request values.** These are JavaScript values (`JsValues.Value`). The argument checks
  use the source's own coercions:
  - `!productId` is truthiness;
  - `isNaN(x)` and `x < 1` go through `Number(x)`;
  - the `quantity = 1` default replaces only `undefined`.
- **Numbers are integers.** `NaN` is a separate value. Request values are scalars; arrays
  and objects are not modelled (see "Left out").
- **Client to server.** `ClientFlows` links the pages to the routes. It takes each
  dispatched action to reach the route as a JSON body of numbers or as the path
  `/cart/<id>` with the id as decimal text. The thunks that do this are not part of
  this model.
- **Signature checking.** `jwt.verify` is the parameter `verify: string -> Option<Payload>`.
  `None` stands for "the library threw".

## Model

| member | source | states |
|---|---|---|
| `Identity.Split` | server/routes/cart.routes.js:13 | `split(' ')` gives one more part than there are spaces. No part contains a space, and joining the parts with spaces gives back the header. |
| `Identity.UserIdFromHeader` | server/routes/cart.routes.js:9-28 | The identity is total: nothing throws. When it yields an id, that id is truthy. |
| `Identity.UserIdFromHeaderIff` | server/routes/cart.routes.js:9-28 | A request has an identity exactly when its header is `Bearer ` followed by a space-free token, that token verifies, and the payload id is truthy. The identity is then that payload id. |
| `Identity.BearerHeaderRoundTrip` | server/routes/cart.routes.js:13-23 | `Bearer <token>` with a space-free token yields the verified payload's id when it is truthy, and no identity otherwise. |
| `Identity.UserIdFromHeaderRejects` | server/routes/cart.routes.js:11-26 | Each of these gives no identity: no header; not exactly one space (a double space fails); a scheme other than `Bearer` (case-sensitive, so `bearer t` fails); a failed verification; a falsy id. |
| `JsValues.StringToNumberOfIntToString` | server/routes/cart.routes.js:144 | `Number` reads back the decimal text of every integer. This is the text form in which a route id passes `isNaN`. |
| `JsValues.ParseIntOfIntToString` | client/src/pages/CartPage.jsx:14 | `parseInt(s, 10)` reads back the decimal text of every integer and ignores anything after it that does not start with a digit. |
| `JsValues.ParseIntStopsAtPoint` | client/src/pages/CartPage.jsx:14 | `parseInt("2.7", 10)` is 2. |
| `CartStore.FindLine` | server/routes/cart.routes.js:92-94 | A row it finds belongs to that user and product. If it finds none, and every key is below the sequence, then no such row exists. |
| `CartStore.FindFrom` | server/routes/cart.routes.js:92-94 | The key scan returns a matching key within its range. If it returns none, no key in the range matches. |
| `CartStore.FindLineFindsTheLine` | server/routes/cart.routes.js:92-94 | In a valid table, the lookup by user and product returns the only row of that pair. |
| `CartStore.SetQuantityPreservesValid` | server/routes/cart.routes.js:98-100 | Setting one row's quantity to at least 1 keeps every invariant. |
| `CartStore.InsertPreservesValid` | server/routes/cart.routes.js:102-106 | Creating a row with quantity at least 1, for a (user, product) pair that has no row, keeps every invariant. |
| `CartRoutes.AddLogic` | server/routes/cart.routes.js:42-113 | The intended POST body checks in this order: 401 with no identity; 400 for a falsy or NaN `productId`; 400 for a NaN or below-1 quantity (defaulting to 1 when absent); 404 for an unknown product. Every refusal leaves the table unchanged, and only a 201 can change it. |
| `CartRoutes.PostCart` | server/routes/cart.routes.js:35-121 | As written, POST reads `productId` at line 40, before its `const` declaration at line 63. It therefore answers 500 and leaves the table unchanged for every request. |
| `CartRoutes.PutCartItem` | server/routes/cart.routes.js:129-178 | PUT answers 401, then 400 for a NaN id, then 400 for a NaN or below-1 quantity, then 404 unless the caller owns the row. A 200 replaces only that row's quantity with the requested one. The keys and all other rows stay the same, and the reply carries the updated row. |
| `CartRoutes.DeleteCartItem` | server/routes/cart.routes.js:193-233 | DELETE `/:id` answers 401, then 400, then 404 unless the caller owns the row. A 200 removes exactly that row and keeps the others. |
| `CartRoutes.DeleteCart` | server/routes/cart.routes.js:248-268 | DELETE `/` answers 200 for any identified caller. It removes exactly that caller's rows and keeps every other row. |
| `CartRoutes.GetCart` | server/routes/cart.routes.js:283-304 | GET `/` returns exactly the caller's rows and never changes the table. |
| `CartRoutes.GetCartItem` | server/routes/cart.routes.js:319-358 | GET `/:id` returns the caller's own row with that id, 404 otherwise, or 400 for a NaN id. It never changes the table. |
| `CartRoutes.Handle` | server/routes/cart.routes.js:35-369 | The router with the intended POST. Without an identity from the header, every route answers 401. A refused request (any status but 200 or 201) leaves the table unchanged, and only POST can answer 201. |
| `CartRoutes.HandleAsWritten` | server/routes/cart.routes.js:35-369 | The router as written. POST always answers 500 and changes nothing; every other route behaves as in `Handle`. So no request ever answers 201, and only a 200 can change the table. |
| `CartProperties.AddLogicEffect` | server/routes/cart.routes.js:92-113 | In a valid table, an add answers 201 exactly when all its checks pass. An existing row for (user, product) then gets existing + requested and nothing else changes. Otherwise exactly one new row holds the requested quantity under a fresh key. The 201 reply carries that row (lines 109-113): its id is a key of the table after the write, and it is the caller's row for that product. |
| `CartProperties.AddLogicPreservesValid` | server/routes/cart.routes.js:92-107 | Adding keeps the table valid: at most one row per (user, product), every quantity at least 1, and every key below the sequence. |
| `CartProperties.HandlePreservesValid` | server/routes/cart.routes.js:35-358 | Every route keeps the table valid. |
| `CartProperties.HandleFrame` | server/routes/cart.routes.js:35-358 | Every route leaves the rows of all other users exactly as they were. Without an identity it changes nothing. |
| `CartProperties.HandleAsWrittenPreservesValidAndFrame` | server/routes/cart.routes.js:35-358 | The service as written also keeps the table valid and leaves the rows of all other users as they were. |
| `CartProperties.UnauthorizedFirst` | server/routes/cart.routes.js:133-139 | Without an identity, every route answers 401 before any other check and leaves the table alone. As written, POST answers 500 instead. |
| `CartProperties.ForeignLineLooksMissing` | server/routes/cart.routes.js:160-170 | For PUT, DELETE and GET of its id, a row owned by someone else gets the same answer as a missing row: 404 once the arguments are valid. Nothing changes either way. |
| `CartProperties.AddTwiceMerges` | server/routes/cart.routes.js:97-100 | Adding 2 and then 3 of one product to an empty cart leaves a single row with quantity 5. |
| `CartProperties.UpdateReplaces` | server/routes/cart.routes.js:172 | A PUT of quantity `q >= 1` to one's own row succeeds and leaves exactly `q` in the row, so repeating the PUT returns the same answer and changes nothing. |
| `CartProperties.RepeatDeleteNotFound` | server/routes/cart.routes.js:215-225 | A DELETE of one's own row succeeds. A second DELETE of the same id then answers 404. |
| `CartProperties.ClearIsTotalAndRepeatable` | server/routes/cart.routes.js:260-268 | After a clear, listing gives no rows. A second clear also answers 200 and changes nothing more. |
| `CartProperties.PostCartNeverAdds` | server/routes/cart.routes.js:40 | Wherever the intended body answers 201 and changes the table, the route as written answers 500 and changes nothing. |
| `CartProperties.IntendedAddAccepts` | server/routes/cart.routes.js:63-107 | Concretely: adding product 7 with no quantity to an empty cart creates row 1 with quantity 1 and answers 201. |
| `CartPage.HandleQuantityChange` | client/src/pages/CartPage.jsx:13-17 | When `parseInt` gives NaN or a value below 1, nothing is dispatched. Otherwise exactly one update is dispatched, naming the item's id and the parsed value. |
| `CartPage.QuantityChangeReadsTypedNumber` | client/src/pages/CartPage.jsx:14-16 | Typing the text of `n`, optionally followed by text that does not start with a digit, updates to `n` when `n >= 1` and dispatches nothing otherwise. |
| `CartPage.QuantityChangeTruncates` | client/src/pages/CartPage.jsx:14-16 | Typing "2.7" updates the item to 2. |
| `CartPage.OnEvent` | client/src/pages/CartPage.jsx:19-25 | Remove dispatches one delete of exactly that item's id. Clear dispatches one `clearCart`. |
| `CartPage.PageRequestsAreWellFormed` | client/src/pages/CartPage.jsx:13-25 | An event dispatches at most one action. The page never requests a quantity below 1, and every row request names the row the event was about. |
| `CartPage.ComputeTotal` | client/src/pages/CartPage.jsx:27-30 | The left-to-right `reduce` equals the sum of price × quantity over the items. |
| `CartPage.TotalProperties` | client/src/pages/CartPage.jsx:27-30 | The total of no items is 0. Totals add up over concatenation. Items without a product contribute 0. With non-negative prices and quantities the total is non-negative. |
| `CartPage.DisplayName` | client/src/pages/CartPage.jsx:56 | An item without a product, or whose product's name is empty, shows `Unknown product`. An item whose product has a non-empty name shows that name. The shown name is never empty. |
| `CartPage.DisplayNameIsJsOr` | client/src/pages/CartPage.jsx:56 | The shown name equals the JavaScript value of `item.Product?.name` or-else `'Unknown product'`. That reference is built from optional chaining and `or` on JavaScript values. |
| `CartPage.Render` | client/src/pages/CartPage.jsx:32-50 | Loading wins over error, and a non-empty error wins over the cart. No items shows the empty-cart view. Otherwise the page shows the items and their total. |
| `Navbar.CartItemsOf` | client/src/components/Navbar.jsx:37 | A missing cart slice, or a slice with no item list, counts as an empty list. A present list is used as it is. |
| `Navbar.CartCountProperties` | client/src/components/Navbar.jsx:37-38 | A missing slice or list counts 0 and shows no badge. The badge (line 109) sits inside the cart button (line 102), so no badge shows without the button. When every quantity is at least 1, the count is at least the number of rows. For a user who sees the cart button, the badge then shows exactly when there is a row. |
| `Navbar.CartCountOfAppend` | client/src/components/Navbar.jsx:38 | One more row raises the count by exactly that row's quantity. |
| `Navbar.MountEffects` | client/src/components/Navbar.jsx:40-44 | Each run of the effect, on mount and whenever `loggedIn` or `isAdmin` changes, dispatches `fetchCart` exactly when the cart button is shown, i.e. logged in and not admin. Nothing else is dispatched. |
| `Navbar.IsActive` | client/src/components/Navbar.jsx:46 | A plain predicate with no contract of its own. Its properties are those of `Navbar.AtMostOneActive` and `Navbar.NavigationHighlightsAtMostOne`. |
| `Navbar.AtMostOneActive` | client/src/components/Navbar.jsx:46 | With exact path equality, any list of links with distinct `href`s highlights at most one link, whatever the path. |
| `Navbar.NavigationHighlightsAtMostOne` | client/src/components/Navbar.jsx:23-26 | The navigation list highlights at most one link. `/products/`, with its trailing slash, highlights none. |
| `Navbar.BadgeOnlyAfterFetch` | client/src/components/Navbar.jsx:40-44 | Whenever the badge is shown, the mount effect fetched the cart. When nothing is fetched, no badge shows. |
| `Navbar.HandleAuthClick` | client/src/components/Navbar.jsx:47-54 | When logged in, the click dispatches `logout` and goes to `/`. Otherwise it dispatches nothing and goes to `/login`. |
| `Navbar.AuthClickSignsOut` | client/src/components/Navbar.jsx:47-54 | Signing out leaves the user logged out. There is then no cart button, no badge and no cart fetch, and the next click goes to `/login` without dispatching. |
| `Seqs.Distinct` | client/src/pages/ProductsPage.jsx:115 | `[...new Set(xs)]` has the same elements as `xs`, each exactly once. |
| `Seqs.DistinctFirstOccurrenceOrder` | client/src/pages/ProductsPage.jsx:115 | The de-duplicated list is ordered by each element's first occurrence. |
| `Seqs.Filter` | client/src/pages/ProductsPage.jsx:121 | `filter` keeps only passing elements, keeps every passing element as often as it occurs, and keeps the original order. |
| `Seqs.Reduce` | client/src/components/Navbar.jsx:38 | The summing `reduce` loop computes the sum of its terms. |
| `ProductsPage.CategoriesListed` | client/src/pages/ProductsPage.jsx:115 | `categories` is `All` followed by every product category exactly once, in order of first occurrence. The `<select>` at lines 146-151 builds its options from the same set with a hand-written `All` option, so it offers this same list. |
| `ProductsPage.CategoryFilter` | client/src/pages/ProductsPage.jsx:118-121 | `All` returns the list unchanged. Another category returns exactly its products, each as often as it occurs, in order. The grid's inline filter at lines 179-182 gives the same list. |
| `ProductsPage.HandleAddToCart` | client/src/pages/ProductsPage.jsx:65-72 | Logged out: nothing is dispatched and the page goes to `/login`. Logged in: one add of that product with quantity 1, and no navigation. |
| `ProductsPage.DeleteClickOutcome` | client/src/pages/ProductsPage.jsx:45-55 | A declined confirm, a falsy response or a throw leaves the list unchanged. Success removes exactly the products with that id and keeps the others in order. |
| `ProductsPage.HandleDeleteClick` | client/src/pages/ProductsPage.jsx:45-55 | A plain function with no contract of its own. Its properties are those of `ProductsPage.DeleteClickOutcome`. |
| `ProductsPage.ButtonsByRole` | client/src/pages/ProductsPage.jsx:202 | A product card shows edit/delete only to admins and "Add to Cart" (line 256) only to non-admins, so exactly one of the two. |
| `ClientFlows.AddToCartAccepted` | client/src/pages/ProductsPage.jsx:65-72 | A logged-in user clicks "Add to Cart" for a product of the catalog whose id is not 0 (a falsy `productId` is refused with 400 at line 65 of server/routes/cart.routes.js). The intended POST body (`CartRoutes.AddLogic`) accepts the add that the click dispatches, with 201. The caller's cart then holds exactly one more of that product. |
| `ClientFlows.AddToCartOverTheWire` | server/routes/cart.routes.js:35-121 | The same add, for a catalog product whose id is not 0, is sent as a whole request with the caller's bearer token. The service with the intended POST answers 201 and adds one of the product. The service as written answers 500 and adds nothing (see Findings). |
| `ClientFlows.QuantityUpdateAccepted` | client/src/pages/CartPage.jsx:13-17 | Every quantity update the page dispatches for one of the caller's own rows passes PUT's checks and answers 200. The row then holds exactly the dispatched quantity. |
| `ClientFlows.RemoveAccepted` | client/src/pages/CartPage.jsx:19-21 | Removing one of the caller's own rows dispatches one delete of its id. That DELETE answers 200, and the row is gone. |
| `ClientFlows.ClearAccepted` | client/src/pages/CartPage.jsx:23-25 | Clearing dispatches one `clearCart`. Its DELETE answers 200 and leaves the caller no rows. |
| `ClientFlows.RolesAgree` | client/src/pages/ProductsPage.jsx:202 | For a logged-in user, the products page offers "Add to Cart" exactly when the navigation bar shows the cart button (Navbar.jsx line 102). It offers admin controls exactly when the button is not shown. |
| `ClientFlows.EmptyViewIffNoBadge` | client/src/pages/CartPage.jsx:40-50 | Take a user who sees the cart button and a cart whose quantities are all at least 1. Once the cart page has loaded without an error, it shows the empty-cart view exactly when the badge is hidden. |

## Findings

| source | as written | input that shows it | evidently intended | confidence | as-written member | corrected member |
|---|---|---|---|---|---|---|
| server/routes/cart.routes.js:40 | The log call reads `productId` and `quantity`. Their `const` is declared at line 63 in the same block, so the read throws a ReferenceError. The catch at lines 114-121 turns it into a 500. | Any POST /cart, e.g. a valid bearer token and body `{ "productId": 7 }` with product 7 in the catalog: 500, nothing added. | The checks and the merge-or-create of lines 42-113, answering 201. | high; not executed | `CartRoutes.PostCart` (with `CartProperties.PostCartNeverAdds`) | `CartRoutes.AddLogic` (with `CartProperties.AddLogicEffect`, `CartProperties.AddLogicPreservesValid`, `CartProperties.IntendedAddAccepts`) |

`CartRoutes.Handle` is the service with the corrected POST. The invariant and frame
lemmas are stated about it. `CartRoutes.HandleAsWritten` differs from it only on POST.
`ClientFlows.AddToCartOverTheWire` shows the bug from the client's side: the add that
"Add to Cart" sends gets 201 from the intended service and 500 from the one as written.

The add handler does a plain find-then-update or find-then-create (lines 92-107 of
server/routes/cart.routes.js). No
unique constraint or transaction backs it in the files modelled, so "one row per user
and product" is proved only for calls made one at a time.

## Left out

- `jwt.verify`: signature and expiry checking belong to a foreign library. It is the
  abstract parameter `verify`; the secret from `process.env` is not modelled.
- `verifyToken`: the middleware is an opaque gate. The handlers are modelled as they
  run once it has let a request through; utils/token.js is not part of this model.
- Express, Sequelize and the database: these become the in-memory `Db`. The model
  assumes the database turns the request's numeric text into integer ids and
  quantities (e.g. `"3"` is stored as 3). A database failure (the 500 of each catch
  block) is not modelled.
- User ids are compared uncoerced, as JavaScript values: `Str("5")` and `Number(5)`
  are different owners, though the database would coerce both to the same user. This
  is harmless only while tokens carry numeric ids.
- The product join of GET `/` and GET `/:id` (name, price, image): the response data
  carries the cart rows only.
- Concurrency: the race between `findOne` and `create`/`update` at lines 92-107 of
  server/routes/cart.routes.js is not modelled. Calls are modelled one at a time, and
  nothing is claimed about atomicity or lost updates.
- JsValues.StringToNumber: only recognises an optionally signed run of decimal digits,
  with ASCII white space (space, tab, newline, carriage return) around it. JavaScript
  also reads fractions, exponents, hexadecimal, `Infinity` and other Unicode white
  space, and those become NaN here. Numbers are unbounded integers, so the loss of
  precision of doubles above 2^53 is not modelled.
- JsValues.ParseInt: skips the same four white-space characters only, and does not
  model the `-0` that `parseInt("-0")` returns (it is 0 here; either way no update is
  dispatched).
- CartProperties.ForeignLineLooksMissing: passes the row id as its plain decimal text
  (`"3"`). Other texts that `Number` reads as the same id, such as `" 3"`, are covered
  only by the handlers' own contracts.
- CartProperties.UpdateReplaces: passes the row id as its plain decimal text, for the
  same reason.
- CartProperties.RepeatDeleteNotFound: passes the row id as its plain decimal text, for
  the same reason.
- Non-integer quantities: the checks `isNaN(quantity) || quantity < 1` (lines 73 and
  152 of server/routes/cart.routes.js) let a quantity such as 1.5 through. Numbers are
  integers in this model, so it cannot express that case.
- Arrays and objects in a JSON body: `JsValues.Value` has scalars only. JavaScript's
  `Number([7])` is 7, so a body such as `{ "productId": [7] }` is not modelled.
- Route ids in other number formats: `Number` reads `"1.5"`, `"1e0"` and `"0x1"` as
  numbers, so the source's `isNaN` check passes them on to the row lookup. That answers
  404, or 500 where the database rejects the text. In the model `JsValues.StringToNumber` reads such texts as NaN, so PUT,
  DELETE and GET `/:id` answer 400 for them.
- ClientModel.LoggedInAfter: the auth slice's `logout` reducer is not part of this
  model, so it is taken to clear the logged-in flag.
- Prices: they are integers, and `toFixed(2)` formatting is not modelled.
- Response texts: `message` strings, `console.log`/`console.error` output and
  `error.message` payloads are left out. A reply keeps its status and data, and
  `success` is derived from the status.
- An absent `req.body`: this would make destructuring throw. The model assumes the JSON
  body parser supplies an object; a missing field is `Undefined`.
- The `Payload.role` field: the cart routes do not read it.
- React rendering, styling, toasts, and navigation as a side effect: navigation is kept
  only as the target path. `handleCartClick`, `handleEditClick` and `handleCreateClick`
  only navigate. The `deletingId` flag always ends `null`, and the product fetch effect
  is not modelled.
- The loading, error and empty views of ProductsPage.jsx (lines 80-112) are not
  modelled; the cart page's views are.
- Redux thunks and slices: these are not shown. An action is only the request a handler
  issues.
- EditProductPage.jsx, CreateProductPage.jsx and HomePage.jsx: they are UI and network
  glue.
- server/database/models/index.js: it only declares associations. It is used only for
  the owner and product references of a cart row.

=== FILE: CartPage.dfy ===
/**
  The pure logic of client/src/pages/CartPage.jsx: the quantity input gate,
  the remove and clear buttons, the order total, the product name fallback
  and which view is shown.
 */
module CartPage {
  import opened Wrappers
  import opened JsValues
  import opened Seqs
  import opened ClientModel

  /** The user events the page handles */
  datatype Event =
    | QuantityTyped(item: CartItem, text: string)
    | RemoveClicked(item: CartItem)
    | ClearClicked

  /**
    `handleQuantityChange`: the typed text is read with `parseInt(text, 10)`;
    NaN or a value below 1 dispatches nothing, anything else dispatches one
    update of that item to that value.
   */
  function HandleQuantityChange(item: CartItem, text: string): (actions: seq<Action>)
    ensures |actions| <= 1
    ensures forall a :: a in actions ==> a.UpdateCartItem? && a.id == item.id && a.quantity >= 1
    ensures actions == [] <==> ParseInt(text).None? || ParseInt(text).value < 1
  {
    var q := ParseInt(text);
    if q.None? || q.value < 1 then [] else [UpdateCartItem(item.id, q.value)]
  }

  /** What each event dispatches: `handleQuantityChange`, `handleDeleteItem`, `handleClearCart` */
  function OnEvent(e: Event): (actions: seq<Action>)
    ensures e.RemoveClicked? ==> actions == [DeleteCartItem(e.item.id)]
    ensures e.ClearClicked? ==> actions == [ClearCart]
  {
    match e
    case QuantityTyped(item, text) => HandleQuantityChange(item, text)
    case RemoveClicked(item) => [DeleteCartItem(item.id)]
    case ClearClicked => [ClearCart]
  }

  /**
    The page never asks the server for a quantity below 1, and every request
    it makes about one row names the row the event was about.
   */
  lemma PageRequestsAreWellFormed(e: Event)
    ensures |OnEvent(e)| <= 1
    ensures forall a :: a in OnEvent(e) && a.UpdateCartItem? ==> a.quantity >= 1
    ensures forall a :: a in OnEvent(e) && (a.UpdateCartItem? || a.DeleteCartItem?) ==> a.id == e.item.id
  {
  }

  /**
    Typing the decimal text of a whole number `n` updates the item to `n`
    exactly when `n >= 1`, and text after the digits that does not start with
    a digit is ignored: typing "2.7" updates to 2.
   */
  lemma QuantityChangeReadsTypedNumber(item: CartItem, n: int, rest: string)
    requires rest == "" || !IsDigit(rest[0])
    ensures HandleQuantityChange(item, IntToString(n) + rest) ==
      if n >= 1 then [UpdateCartItem(item.id, n)] else []
  {
    ParseIntOfIntToString(n, rest);
  }

  /** The typed text "2.7" updates the item to 2 */
  lemma QuantityChangeTruncates(item: CartItem)
    ensures HandleQuantityChange(item, "2.7") == [UpdateCartItem(item.id, 2)]
  {
    ParseIntStopsAtPoint();
  }

  /** `item.Product?.price || 0` */
  function PriceOf(item: CartItem): int {
    match item.product
    case Some(p) => p.price
    case None => 0
  }

  function LineTotal(item: CartItem): int {
    PriceOf(item) * item.quantity
  }

  /** `items.reduce((sum, item) => sum + price * item.quantity, 0)` */
  function Total(items: seq<CartItem>): int {
    SumOf(items, LineTotal)
  }

  /** The running sum of the page, computed as the `reduce` does */
  method ComputeTotal(items: seq<CartItem>) returns (total: int)
    ensures total == Total(items)
  {
    total := Reduce(items, LineTotal);
  }

  /**
    The total of an empty cart is 0; totals add up over concatenated item
    lists; an item without a product adds nothing; with prices and quantities
    not negative the total is not negative.
   */
  lemma TotalProperties(a: seq<CartItem>, b: seq<CartItem>)
    ensures Total([]) == 0
    ensures Total(a + b) == Total(a) + Total(b)
    ensures (forall i :: i in a ==> i.product.None?) ==> Total(a) == 0
    ensures (forall i :: i in a ==> PriceOf(i) >= 0 && i.quantity >= 0) ==> Total(a) >= 0
  {
    SumOfAppend(a, b, LineTotal);
    if forall i :: i in a ==> i.product.None? {
      SumOfAtLeast(a, LineTotal, 0);
      SumOfAtMost(a, LineTotal, 0);
    }
    if forall i :: i in a ==> PriceOf(i) >= 0 && i.quantity >= 0 {
      forall i | i in a
        ensures LineTotal(i) >= 0
      {
      }
      SumOfAtLeast(a, LineTotal, 0);
    }
  }

  /** `item.Product?.name || 'Unknown product'` */
  function DisplayName(item: CartItem): (name: string)
    ensures item.product.None? ==> name == "Unknown product"
    ensures item.product.Some? && item.product.value.name != "" ==> name == item.product.value.name
    ensures item.product.Some? && item.product.value.name == "" ==> name == "Unknown product"
    ensures name != ""
  {
    match item.product
    case Some(p) => if p.name != "" then p.name else "Unknown product"
    case None => "Unknown product"
  }

  /** `item.Product?.name`: `undefined` when the row has no product */
  function NameValue(item: CartItem): Value {
    match item.product
    case Some(p) => Str(p.name)
    case None => Undefined
  }

  /** The shown name is the JavaScript `item.Product?.name || 'Unknown product'` */
  lemma DisplayNameIsJsOr(item: CartItem)
    ensures Str(DisplayName(item)) == Or(NameValue(item), Str("Unknown product"))
  {
  }

  datatype View = LoadingView | ErrorView(message: string) | EmptyView | ItemsView(items: seq<CartItem>, total: int)

  /**
    Which view the page renders: loading before an error, an error before
    the cart, the empty-cart message for no items, otherwise the items and
    their total.
   */
  function Render(loading: bool, error: Option<string>, items: seq<CartItem>): (v: View)
    ensures loading <==> v.LoadingView?
    ensures v.ErrorView? <==> !loading && error.Some? && error.value != ""
    ensures v.EmptyView? <==> !loading && (error.None? || error.value == "") && items == []
    ensures v.ItemsView? ==> v.items == items && v.total == Total(items) && items != []
  {
    if loading then LoadingView
    else if error.Some? && error.value != "" then ErrorView(error.value)
    else if items == [] then EmptyView
    else ItemsView(items, Total(items))
  }
}

=== FILE: CartProperties.dfy ===
/**
  What the cart service guarantees across calls made one at a time: the
  table invariants (one row per user and product, quantities of at least 1),
  that a call touches only its caller's rows, that another user's row looks
  exactly like a missing one, and the merge-on-add behaviour.
 */
module CartProperties {
  import opened Wrappers
  import opened JsValues
  import opened CartStore
  import opened CartRoutes
  import Identity

  /**
    Adding with every check passed merges into the caller's row for the
    product, or creates exactly one; the 201 reply carries that row as it is
    after the write.
   */
  lemma AddLogicEffect(u: UserId, productId: Value, quantity: Value, db: Db, catalog: set<ProductId>)
    requires Valid(db)
    ensures var r := AddLogic(Some(u), productId, quantity, db, catalog);
      var q := WithDefaultQuantity(quantity);
      && (r.reply.status == Created <==>
            ValidProductId(productId) && ValidQuantity(q) && ToNumber(productId).value in catalog)
      && (r.reply.status == Created ==>
            var p := ToNumber(productId).value;
            var n := ToNumber(q).value;
            && (forall id :: id in db.lines && Matches(db.lines[id], u, p) ==>
                  r.db == Db(db.lines[id := db.lines[id].(quantity := db.lines[id].quantity + n)], db.nextId))
            && ((forall id :: id in db.lines ==> !Matches(db.lines[id], u, p)) ==>
                  db.nextId !in db.lines && r.db == Db(db.lines[db.nextId := CartLine(u, p, n)], db.nextId + 1)))
      && (r.reply.status == Created ==>
            && r.reply.data.OneLine?
            && r.reply.data.id in r.db.lines
            && r.reply.data.line == r.db.lines[r.reply.data.id]
            && Matches(r.reply.data.line, u, ToNumber(productId).value))
  {
    var r := AddLogic(Some(u), productId, quantity, db, catalog);
    var q := WithDefaultQuantity(quantity);
    if r.reply.status == Created {
      var p := ToNumber(productId).value;
      forall id | id in db.lines && Matches(db.lines[id], u, p)
        ensures FindLine(db, u, p) == Some(id)
      {
        FindLineFindsTheLine(db, u, p, id);
      }
    }
  }

  /** Adding keeps the table valid: in particular it never makes a second row for the same user and product */
  lemma AddLogicPreservesValid(userId: Option<UserId>, productId: Value, quantity: Value, db: Db, catalog: set<ProductId>)
    requires Valid(db)
    ensures Valid(AddLogic(userId, productId, quantity, db, catalog).db)
  {
    var r := AddLogic(userId, productId, quantity, db, catalog);
    if r.reply.status == Created {
      var u := userId.value;
      var p := ToNumber(productId).value;
      var n := ToNumber(WithDefaultQuantity(quantity)).value;
      match FindLine(db, u, p)
      case Some(id) =>
        assert r.db == SetQuantity(db, id, db.lines[id].quantity + n);
        SetQuantityPreservesValid(db, id, db.lines[id].quantity + n);
      case None =>
        assert r.db == Insert(db, CartLine(u, p, n));
        InsertPreservesValid(db, CartLine(u, p, n));
    }
  }

  /** Every call of the service keeps the table valid */
  lemma HandlePreservesValid(req: Request, verify: Identity.Verifier, db: Db, catalog: set<ProductId>)
    requires Valid(db)
    ensures Valid(Handle(req, verify, db, catalog).db)
  {
    var userId := Identity.UserIdFromHeader(req.authorization, verify);
    match req.endpoint
    case Post => AddLogicPreservesValid(userId, req.body.productId, req.body.quantity, db, catalog);
    case Put(param) =>
      var r := PutCartItem(userId, param, req.body.quantity, db);
      if r.reply.status == Ok {
        var id := ParamId(param).value;
        SetQuantityPreservesValid(db, id, ToNumber(req.body.quantity).value);
      }
    case DeleteOne(id) =>
    case DeleteAll =>
    case GetAll =>
    case GetOne(id) =>
  }

  /** The table after a call changed nothing unless a caller was identified, and then only that caller's rows */
  predicate FramedBy(before: Db, after: Db, userId: Option<UserId>) {
    match userId
    case None => after == before
    case Some(u) => OthersUnchanged(before, after, u)
  }

  /** Every call leaves every other user's rows exactly as they were */
  lemma HandleFrame(req: Request, verify: Identity.Verifier, db: Db, catalog: set<ProductId>)
    requires KeysBelowNext(db)
    ensures FramedBy(db, Handle(req, verify, db, catalog).db, Identity.UserIdFromHeader(req.authorization, verify))
  {
    var userId := Identity.UserIdFromHeader(req.authorization, verify);
    var r := Handle(req, verify, db, catalog);
    if userId.Some? && r.db != db {
      var u := userId.value;
      match req.endpoint
      case Post =>
        var p := ToNumber(req.body.productId).value;
        var n := ToNumber(WithDefaultQuantity(req.body.quantity)).value;
        match FindLine(db, u, p) {
          case Some(id) =>
            OwnWriteKeepsOthers(db.lines, id, db.lines[id].(quantity := db.lines[id].quantity + n), u);
          case None =>
            OwnWriteKeepsOthers(db.lines, db.nextId, CartLine(u, p, n), u);
        }
      case Put(param) =>
        var id := ParamId(param).value;
        OwnWriteKeepsOthers(db.lines, id, db.lines[id].(quantity := ToNumber(req.body.quantity).value), u);
      case DeleteOne(param) =>
        OwnRemovalKeepsOthers(db.lines, ParamId(param).value, u);
      case DeleteAll =>
      case GetAll =>
      case GetOne(param) =>
    }
  }

  /**
    The service as written keeps the same two guarantees: its POST changes
    nothing, and every other route is the intended one.
   */
  lemma HandleAsWrittenPreservesValidAndFrame(req: Request, verify: Identity.Verifier, db: Db, catalog: set<ProductId>)
    requires Valid(db)
    ensures Valid(HandleAsWritten(req, verify, db, catalog).db)
    ensures FramedBy(db, HandleAsWritten(req, verify, db, catalog).db, Identity.UserIdFromHeader(req.authorization, verify))
  {
    if !req.endpoint.Post? {
      HandlePreservesValid(req, verify, db, catalog);
      HandleFrame(req, verify, db, catalog);
    }
  }

  /**
    Without an identity every route answers 401 and leaves the table alone,
    before any other check; as written, POST answers 500 instead.
   */
  lemma UnauthorizedFirst(req: Request, verify: Identity.Verifier, db: Db, catalog: set<ProductId>)
    requires Identity.UserIdFromHeader(req.authorization, verify).None?
    ensures Handle(req, verify, db, catalog) == Refuse(Unauthorized, db)
    ensures HandleAsWritten(req, verify, db, catalog) ==
      Refuse(if req.endpoint.Post? then ServerError else Unauthorized, db)
  {
  }

  /**
    A row that belongs to another user is indistinguishable from a missing
    row: PUT, DELETE and GET of its id give the same answer as they would if
    it did not exist, a 404 once the arguments are valid, and change nothing.
   */
  lemma ForeignLineLooksMissing(u: UserId, id: LineId, quantity: Value, db: Db)
    requires id in db.lines && db.lines[id].userId != u
    ensures var param := IntToString(id);
      && PutCartItem(Some(u), param, quantity, db) == Refuse(if ValidQuantity(quantity) then NotFound else BadRequest, db)
      && PutCartItem(Some(u), param, quantity, Destroy(db, id)).reply == PutCartItem(Some(u), param, quantity, db).reply
      && DeleteCartItem(Some(u), param, db) == Refuse(NotFound, db)
      && DeleteCartItem(Some(u), param, Destroy(db, id)).reply == DeleteCartItem(Some(u), param, db).reply
      && GetCartItem(Some(u), param, db) == Refuse(NotFound, db)
      && GetCartItem(Some(u), param, Destroy(db, id)).reply == GetCartItem(Some(u), param, db).reply
  {
    StringToNumberOfIntToString(id);
    assert !Owns(Destroy(db, id), id, u);
  }

  /**
    Adding 2 then 3 of the same product to an empty cart leaves exactly one
    row, with quantity 5 (merge, not replace and not a second row).
   */
  lemma AddTwiceMerges(u: UserId, p: ProductId, catalog: set<ProductId>)
    requires Truthy(u) && p != 0 && p in catalog
    ensures var first := AddLogic(Some(u), Number(p), Number(2), EmptyDb, catalog);
      var second := AddLogic(Some(u), Number(p), Number(3), first.db, catalog);
      && first.reply.status == Created
      && second.reply.status == Created
      && second.db.lines == map[1 := CartLine(u, p, 5)]
  {
    var first := AddLogic(Some(u), Number(p), Number(2), EmptyDb, catalog);
    assert FindLine(EmptyDb, u, p) == None;
    assert first.db == Db(map[1 := CartLine(u, p, 2)], 2);
    FindLineFindsTheLine(first.db, u, p, 1);
  }

  /**
    PUT replaces the quantity rather than adding to it: whatever the row held
    before, it holds exactly the requested quantity afterwards, so repeating
    the same PUT changes nothing more (unlike a repeated add, which merges).
   */
  lemma UpdateReplaces(u: UserId, id: LineId, q: int, db: Db)
    requires Owns(db, id, u) && q >= 1
    ensures var once := PutCartItem(Some(u), IntToString(id), Number(q), db);
      && once.reply.status == Ok
      && once.db.lines[id].quantity == q
      && PutCartItem(Some(u), IntToString(id), Number(q), once.db) == once
  {
    StringToNumberOfIntToString(id);
    var once := PutCartItem(Some(u), IntToString(id), Number(q), db);
    assert Owns(once.db, id, u);
    assert SetQuantity(once.db, id, q) == once.db;
  }

  /** A DELETE of one's own row answers 200; a second DELETE of it answers 404 */
  lemma RepeatDeleteNotFound(u: UserId, id: LineId, db: Db)
    requires Owns(db, id, u)
    ensures var once := DeleteCartItem(Some(u), IntToString(id), db);
      && once.reply.status == Ok
      && DeleteCartItem(Some(u), IntToString(id), once.db) == Refuse(NotFound, once.db)
  {
    StringToNumberOfIntToString(id);
  }

  /**
    Clearing then listing gives an empty list; a second clear succeeds too and
    changes nothing more.
   */
  lemma ClearIsTotalAndRepeatable(u: UserId, db: Db)
    ensures var once := DeleteCart(Some(u), db);
      var twice := DeleteCart(Some(u), once.db);
      && once.reply.status == Ok
      && GetCart(Some(u), once.db).reply == Reply(Ok, AllLines(map[]))
      && twice.reply.status == Ok
      && twice.db == once.db
  {
    var once := DeleteCart(Some(u), db);
    assert LinesOf(once.db.lines, u) == map[];
    assert LinesNotOf(once.db.lines, u) == once.db.lines;
  }

  /**
    As written, POST never adds: wherever the intended body would answer 201,
    the route answers 500 and the table stays as it was.
   */
  lemma PostCartNeverAdds(userId: Option<UserId>, productId: Value, quantity: Value, db: Db, catalog: set<ProductId>)
    requires AddLogic(userId, productId, quantity, db, catalog).reply.status == Created
    ensures PostCart(userId, productId, quantity, db, catalog).reply.status == ServerError
    ensures PostCart(userId, productId, quantity, db, catalog).db == db
    ensures AddLogic(userId, productId, quantity, db, catalog).db != db
  {
    var r := AddLogic(userId, productId, quantity, db, catalog);
    var u := userId.value;
    var p := ToNumber(productId).value;
    match FindLine(db, u, p)
    case Some(id) =>
      assert r.db.lines[id].quantity > db.lines[id].quantity;
    case None =>
      assert r.db.nextId != db.nextId;
  }

  /** A concrete request the intended body accepts: product 7, no quantity, an empty cart */
  lemma IntendedAddAccepts()
    ensures AddLogic(Some(Number(1)), Number(7), Undefined, EmptyDb, {7}) ==
      Outcome(Reply(Created, OneLine(1, CartLine(Number(1), 7, 1))), Db(map[1 := CartLine(Number(1), 7, 1)], 2))
  {
    assert FindLine(EmptyDb, Number(1), 7) == None;
  }
}

=== FILE: CartRoutes.dfy ===
/**
  The route handlers of server/routes/cart.routes.js as transitions of the
  `Cart` table: each takes the caller's identity (the result of
  `getUserIdFromRequest`), the request's parameters and the table, and gives
  the response (status and payload) with the table afterwards.

  Every handler checks in the same order: identity (401), then its arguments
  (400), then product existence (404, POST only), then the lookup of the
  caller's own row (404).
 */
module CartRoutes {
  import opened Wrappers
  import opened JsValues
  import opened CartStore
  import Identity

  const Ok := 200
  const Created := 201
  const BadRequest := 400
  const Unauthorized := 401
  const NotFound := 404
  const ServerError := 500

  /** The `data` of the response envelope */
  datatype Data = NoData | OneLine(id: LineId, line: CartLine) | AllLines(lines: map<LineId, CartLine>)

  datatype Reply = Reply(status: int, data: Data) {
    /** The envelope's `success` flag, true exactly on the 2xx answers */
    predicate Success() {
      status == Ok || status == Created
    }
  }

  /** A response together with the table after the call */
  datatype Outcome = Outcome(reply: Reply, db: Db)

  /** A failure answer that leaves the table as it was */
  function Refuse(status: int, db: Db): Outcome {
    Outcome(Reply(status, NoData), db)
  }

  /** `!productId || isNaN(productId)` does not hold */
  predicate ValidProductId(productId: Value) {
    Truthy(productId) && !IsNaN(productId)
  }

  /** `const { quantity = 1 } = req.body`: the default replaces `undefined` only */
  function WithDefaultQuantity(quantity: Value): Value {
    if quantity == Undefined then Number(1) else quantity
  }

  /** `isNaN(quantity) || quantity < 1` does not hold */
  predicate ValidQuantity(quantity: Value) {
    !IsNaN(quantity) && ToNumber(quantity).value >= 1
  }

  /** The number `Number(req.params.id)`; `None` when `isNaN(id)` */
  function ParamId(param: string): Option<int> {
    StringToNumber(param)
  }

  /**
    The body of POST /cart as its author evidently intended it (lines 42-113):
    identity, then `productId`, then `quantity` (1 when absent), then the
    product's existence, then merge into the caller's row for that product or
    create one. Every refusal leaves the table unchanged.
   */
  function AddLogic(userId: Option<UserId>, productId: Value, quantity: Value, db: Db, catalog: set<ProductId>): (r: Outcome)
    ensures userId.None? ==> r == Refuse(Unauthorized, db)
    ensures userId.Some? && !ValidProductId(productId) ==> r == Refuse(BadRequest, db)
    ensures userId.Some? && ValidProductId(productId) && !ValidQuantity(WithDefaultQuantity(quantity)) ==>
      r == Refuse(BadRequest, db)
    ensures (userId.Some? && ValidProductId(productId) && ValidQuantity(WithDefaultQuantity(quantity)) &&
      ToNumber(productId).value !in catalog) ==> r == Refuse(NotFound, db)
    ensures r.reply.status == Created || r.db == db
    ensures r.reply.status == Created ==>
      r.reply.data.OneLine? && r.reply.data.id in r.db.lines && r.reply.data.line == r.db.lines[r.reply.data.id]
  {
    if userId.None? then Refuse(Unauthorized, db)
    else if !ValidProductId(productId) then Refuse(BadRequest, db)
    else
      var q := WithDefaultQuantity(quantity);
      if !ValidQuantity(q) then Refuse(BadRequest, db)
      else
        var u := userId.value;
        var p := ToNumber(productId).value;
        var n := ToNumber(q).value;
        if p !in catalog then Refuse(NotFound, db)
        else
          match FindLine(db, u, p)
          case Some(id) =>
            var db' := SetQuantity(db, id, db.lines[id].quantity + n);
            Outcome(Reply(Created, OneLine(id, db'.lines[id])), db')
          case None =>
            var line := CartLine(u, p, n);
            Outcome(Reply(Created, OneLine(db.nextId, line)), Insert(db, line))
  }

  /**
    POST /cart as written. The log call at line 40 reads `productId` and
    `quantity`, whose `const` declaration comes later in the same block (line
    63). A `const` read before its declaration has run throws a ReferenceError
    whatever the request holds. The catch at lines 114-121 turns it into a
    500, so none of the checks or writes of lines 42-113 is ever reached.
   */
  function PostCart(userId: Option<UserId>, productId: Value, quantity: Value, db: Db, catalog: set<ProductId>): (r: Outcome)
    ensures r == Refuse(ServerError, db)
  {
    Refuse(ServerError, db)
  }

  /**
    PUT /cart/:id: identity, then the id (400), then the quantity (400), then
    the caller's own row with that id (404); on success that row's quantity is
    replaced by the requested one and nothing else changes.
   */
  function PutCartItem(userId: Option<UserId>, idParam: string, quantity: Value, db: Db): (r: Outcome)
    ensures userId.None? ==> r == Refuse(Unauthorized, db)
    ensures userId.Some? && ParamId(idParam).None? ==> r == Refuse(BadRequest, db)
    ensures userId.Some? && ParamId(idParam).Some? && !ValidQuantity(quantity) ==> r == Refuse(BadRequest, db)
    ensures (userId.Some? && ParamId(idParam).Some? && ValidQuantity(quantity) &&
      !Owns(db, ParamId(idParam).value, userId.value)) ==> r == Refuse(NotFound, db)
    ensures r.reply.status == Ok ==>
      var id := ParamId(idParam).value;
      && Owns(db, id, userId.value)
      && r.db.nextId == db.nextId
      && r.db.lines.Keys == db.lines.Keys
      && r.db.lines[id] == db.lines[id].(quantity := ToNumber(quantity).value)
      && (forall other :: other in db.lines && other != id ==> r.db.lines[other] == db.lines[other])
      && r.reply.data == OneLine(id, r.db.lines[id])
    ensures r.reply.status == Ok || r.db == db
  {
    if userId.None? then Refuse(Unauthorized, db)
    else
      match ParamId(idParam)
      case None => Refuse(BadRequest, db)
      case Some(id) =>
        if !ValidQuantity(quantity) then Refuse(BadRequest, db)
        else if !Owns(db, id, userId.value) then Refuse(NotFound, db)
        else
          var db' := SetQuantity(db, id, ToNumber(quantity).value);
          Outcome(Reply(Ok, OneLine(id, db'.lines[id])), db')
  }

  /**
    DELETE /cart/:id: identity, then the id (400), then the caller's own row
    with that id (404); on success exactly that row is gone.
   */
  function DeleteCartItem(userId: Option<UserId>, idParam: string, db: Db): (r: Outcome)
    ensures userId.None? ==> r == Refuse(Unauthorized, db)
    ensures userId.Some? && ParamId(idParam).None? ==> r == Refuse(BadRequest, db)
    ensures (userId.Some? && ParamId(idParam).Some? && !Owns(db, ParamId(idParam).value, userId.value)) ==>
      r == Refuse(NotFound, db)
    ensures r.reply.status == Ok ==>
      var id := ParamId(idParam).value;
      && Owns(db, id, userId.value)
      && r.db.nextId == db.nextId
      && r.db.lines.Keys == db.lines.Keys - {id}
      && (forall other :: other in r.db.lines ==> r.db.lines[other] == db.lines[other])
      && r.reply.data == NoData
    ensures r.reply.status == Ok || r.db == db
  {
    if userId.None? then Refuse(Unauthorized, db)
    else
      match ParamId(idParam)
      case None => Refuse(BadRequest, db)
      case Some(id) =>
        if !Owns(db, id, userId.value) then Refuse(NotFound, db)
        else Outcome(Reply(Ok, NoData), Destroy(db, id))
  }

  /**
    DELETE /cart: identity, then every row of the caller is removed and no
    other; it answers 200 even when there was nothing to remove.
   */
  function DeleteCart(userId: Option<UserId>, db: Db): (r: Outcome)
    ensures userId.None? ==> r == Refuse(Unauthorized, db)
    ensures userId.Some? ==>
      && r.reply == Reply(Ok, NoData)
      && r.db.nextId == db.nextId
      && (forall id :: id in r.db.lines ==> id in db.lines && r.db.lines[id] == db.lines[id])
      && (forall id :: id in db.lines ==> (id in r.db.lines <==> db.lines[id].userId != userId.value))
  {
    if userId.None? then Refuse(Unauthorized, db)
    else Outcome(Reply(Ok, NoData), DestroyAllOf(db, userId.value))
  }

  /** GET /cart: identity, then exactly the caller's rows; the table is not touched */
  function GetCart(userId: Option<UserId>, db: Db): (r: Outcome)
    ensures r.db == db
    ensures userId.None? ==> r.reply.status == Unauthorized
    ensures userId.Some? ==>
      && r.reply.status == Ok
      && r.reply.data.AllLines?
      && (forall id :: id in r.reply.data.lines <==> Owns(db, id, userId.value))
      && (forall id :: id in r.reply.data.lines ==> r.reply.data.lines[id] == db.lines[id])
  {
    if userId.None? then Refuse(Unauthorized, db)
    else Outcome(Reply(Ok, AllLines(LinesOf(db.lines, userId.value))), db)
  }

  /**
    GET /cart/:id: identity, then the id (400), then the caller's own row with
    that id, or 404; the table is not touched.
   */
  function GetCartItem(userId: Option<UserId>, idParam: string, db: Db): (r: Outcome)
    ensures r.db == db
    ensures userId.None? ==> r.reply.status == Unauthorized
    ensures userId.Some? && ParamId(idParam).None? ==> r.reply.status == BadRequest
    ensures userId.Some? && ParamId(idParam).Some? ==>
      var id := ParamId(idParam).value;
      if Owns(db, id, userId.value) then r.reply == Reply(Ok, OneLine(id, db.lines[id]))
      else r.reply.status == NotFound
  {
    if userId.None? then Refuse(Unauthorized, db)
    else
      match ParamId(idParam)
      case None => Refuse(BadRequest, db)
      case Some(id) =>
        if !Owns(db, id, userId.value) then Refuse(NotFound, db)
        else Outcome(Reply(Ok, OneLine(id, db.lines[id])), db)
  }

  datatype Endpoint = Post | Put(id: string) | DeleteOne(id: string) | DeleteAll | GetAll | GetOne(id: string)

  /** The body fields the routes read; a field the client left out is `Undefined` */
  datatype Body = Body(productId: Value, quantity: Value)

  datatype Request = Request(endpoint: Endpoint, authorization: Option<string>, body: Body)

  /**
    The router of server/routes/cart.routes.js, with POST answered by its
    intended body: the caller's identity comes from the `Authorization`
    header, and the endpoint selects the handler. Without an identity every
    route answers 401, and only a 200 or a 201 can change the table.
   */
  function Handle(req: Request, verify: Identity.Verifier, db: Db, catalog: set<ProductId>): (r: Outcome)
    ensures Identity.UserIdFromHeader(req.authorization, verify).None? ==> r == Refuse(Unauthorized, db)
    ensures r.reply.status == Ok || r.reply.status == Created || r.db == db
    ensures !req.endpoint.Post? ==> r.reply.status != Created
  {
    var userId := Identity.UserIdFromHeader(req.authorization, verify);
    match req.endpoint
    case Post => AddLogic(userId, req.body.productId, req.body.quantity, db, catalog)
    case Put(id) => PutCartItem(userId, id, req.body.quantity, db)
    case DeleteOne(id) => DeleteCartItem(userId, id, db)
    case DeleteAll => DeleteCart(userId, db)
    case GetAll => GetCart(userId, db)
    case GetOne(id) => GetCartItem(userId, id, db)
  }

  /**
    The router as written: POST always answers 500 and changes nothing (see
    `PostCart`); every other route behaves as in `Handle`. So no request of
    the service as written ever creates a row or answers 201.
   */
  function HandleAsWritten(req: Request, verify: Identity.Verifier, db: Db, catalog: set<ProductId>): (r: Outcome)
    ensures req.endpoint.Post? ==> r == Refuse(ServerError, db)
    ensures !req.endpoint.Post? ==> r == Handle(req, verify, db, catalog)
    ensures r.reply.status != Created
    ensures r.reply.status == Ok || r.db == db
  {
    var userId := Identity.UserIdFromHeader(req.authorization, verify);
    if req.endpoint.Post? then PostCart(userId, req.body.productId, req.body.quantity, db, catalog)
    else Handle(req, verify, db, catalog)
  }
}

=== FILE: CartStore.dfy ===
/**
  The `Cart` table the routes of server/routes/cart.routes.js read and write
  through Sequelize: rows keyed by an auto-incremented id, each naming its
  owner (`userId`) and its product (`productId`), as the associations in
  server/database/models/index.js declare.

  No unique constraint on (userId, productId) is visible in the files
  modelled, so the invariants below are kept only by what the handlers do.
 */
module CartStore {
  import opened Wrappers
  import Identity

  type UserId = Identity.UserId
  type LineId = nat
  type ProductId = int

  datatype CartLine = CartLine(userId: UserId, productId: ProductId, quantity: int)

  /** The table: rows by primary key, and the next key the auto-increment sequence hands out */
  datatype Db = Db(lines: map<LineId, CartLine>, nextId: LineId)

  /** A fresh table: no rows, ids start at 1 */
  const EmptyDb := Db(map[], 1)

  /** Every row's key was handed out by the sequence already */
  predicate KeysBelowNext(db: Db) {
    forall id :: id in db.lines ==> id < db.nextId
  }

  /** At most one row per (user, product) */
  predicate OneLinePerProduct(db: Db) {
    forall a, b ::
      (a in db.lines && b in db.lines && Matches(db.lines[b], db.lines[a].userId, db.lines[a].productId)) ==> a == b
  }

  /** No row holds a quantity below 1 */
  predicate QuantitiesPositive(db: Db) {
    forall id :: id in db.lines ==> db.lines[id].quantity >= 1
  }

  predicate Valid(db: Db) {
    KeysBelowNext(db) && OneLinePerProduct(db) && QuantitiesPositive(db)
  }

  predicate Matches(line: CartLine, u: UserId, p: ProductId) {
    line.userId == u && line.productId == p
  }

  /** The rows of user `u` */
  function LinesOf(lines: map<LineId, CartLine>, u: UserId): (r: map<LineId, CartLine>)
    ensures forall id :: id in r <==> id in lines && lines[id].userId == u
    ensures forall id :: id in r ==> r[id] == lines[id]
  {
    map id | id in lines && lines[id].userId == u :: lines[id]
  }

  /** The rows of every user other than `u` */
  function LinesNotOf(lines: map<LineId, CartLine>, u: UserId): (r: map<LineId, CartLine>)
    ensures forall id :: id in r <==> id in lines && lines[id].userId != u
    ensures forall id :: id in r ==> r[id] == lines[id]
  {
    map id | id in lines && lines[id].userId != u :: lines[id]
  }

  /** `after` holds exactly the rows `before` holds for users other than `u` */
  predicate OthersUnchanged(before: Db, after: Db, u: UserId) {
    LinesNotOf(after.lines, u) == LinesNotOf(before.lines, u)
  }

  /** `Cart.findOne({ where: { id, userId } })`: the row `id` when `u` owns it */
  predicate Owns(db: Db, id: int, u: UserId) {
    id >= 0 && id in db.lines && db.lines[id].userId == u
  }

  /** Scanning keys `i` up to `bound` for the first row of (`u`, `p`) */
  function FindFrom(lines: map<LineId, CartLine>, u: UserId, p: ProductId, i: nat, bound: nat): (r: Option<LineId>)
    decreases bound - i
    ensures r.Some? ==> i <= r.value < bound && r.value in lines && Matches(lines[r.value], u, p)
    ensures r.None? ==> forall id :: i <= id < bound && id in lines ==> !Matches(lines[id], u, p)
  {
    if i >= bound then None
    else if i in lines && Matches(lines[i], u, p) then Some(i)
    else FindFrom(lines, u, p, i + 1, bound)
  }

  /**
    `Cart.findOne({ where: { userId, productId } })`. Without an `order` the
    database promises no particular row when several match. Taking the one of
    lowest id is a choice of this model, and it does not matter under `Valid`,
    where at most one row matches.
   */
  function FindLine(db: Db, u: UserId, p: ProductId): (r: Option<LineId>)
    ensures r.Some? ==> r.value in db.lines && Matches(db.lines[r.value], u, p)
    ensures r.None? && KeysBelowNext(db) ==> forall id :: id in db.lines ==> !Matches(db.lines[id], u, p)
  {
    FindFrom(db.lines, u, p, 0, db.nextId)
  }

  /** How many of product `p` the cart of `u` holds: the quantity of the row `FindLine` finds, else 0 */
  function QuantityOf(db: Db, u: UserId, p: ProductId): int {
    match FindLine(db, u, p)
    case Some(id) => db.lines[id].quantity
    case None => 0
  }

  /** In a valid table the row of (`u`, `p`), when there is one, is the one `FindLine` finds */
  lemma FindLineFindsTheLine(db: Db, u: UserId, p: ProductId, id: LineId)
    requires Valid(db)
    requires id in db.lines && Matches(db.lines[id], u, p)
    ensures FindLine(db, u, p) == Some(id)
  {
  }

  /** `Cart.create(line)`: a new row under the next key */
  function Insert(db: Db, line: CartLine): Db {
    Db(db.lines[db.nextId := line], db.nextId + 1)
  }

  /** `row.update({ quantity })` */
  function SetQuantity(db: Db, id: LineId, quantity: int): Db
    requires id in db.lines
  {
    Db(db.lines[id := db.lines[id].(quantity := quantity)], db.nextId)
  }

  /** `row.destroy()` */
  function Destroy(db: Db, id: LineId): Db {
    Db(db.lines - {id}, db.nextId)
  }

  /** `Cart.destroy({ where: { userId } })` */
  function DestroyAllOf(db: Db, u: UserId): Db {
    Db(LinesNotOf(db.lines, u), db.nextId)
  }

  /** Changing one row's quantity to at least 1 keeps the table valid */
  lemma SetQuantityPreservesValid(db: Db, id: LineId, quantity: int)
    requires Valid(db) && id in db.lines && quantity >= 1
    ensures Valid(SetQuantity(db, id, quantity))
  {
    var after := SetQuantity(db, id, quantity);
    forall a, b | a in after.lines && b in after.lines && Matches(after.lines[b], after.lines[a].userId, after.lines[a].productId)
      ensures a == b
    {
      assert Matches(db.lines[b], db.lines[a].userId, db.lines[a].productId);
    }
  }

  /** Inserting a row for a (user, product) that has none, with quantity at least 1, keeps the table valid */
  lemma InsertPreservesValid(db: Db, line: CartLine)
    requires Valid(db) && line.quantity >= 1
    requires forall id :: id in db.lines ==> !Matches(db.lines[id], line.userId, line.productId)
    ensures Valid(Insert(db, line))
  {
    var after := Insert(db, line);
    forall a, b | a in after.lines && b in after.lines && Matches(after.lines[b], after.lines[a].userId, after.lines[a].productId)
      ensures a == b
    {
      if a != db.nextId && b != db.nextId {
        assert Matches(db.lines[b], db.lines[a].userId, db.lines[a].productId);
      }
    }
  }

  /** Writing a row of `u` over a missing row or a row of `u` leaves everyone else's rows alone */
  lemma OwnWriteKeepsOthers(lines: map<LineId, CartLine>, id: LineId, line: CartLine, u: UserId)
    requires id !in lines || lines[id].userId == u
    requires line.userId == u
    ensures LinesNotOf(lines[id := line], u) == LinesNotOf(lines, u)
  {
  }

  /** Removing a row of `u` leaves everyone else's rows alone */
  lemma OwnRemovalKeepsOthers(lines: map<LineId, CartLine>, id: LineId, u: UserId)
    requires id in lines && lines[id].userId == u
    ensures LinesNotOf(lines - {id}, u) == LinesNotOf(lines, u)
  {
  }
}

=== FILE: ClientFlows.dfy ===
/**
  How the client's requests meet the server. Each page handler dispatches an
  action; the action's thunk (not part of this model) sends it as the JSON
  body or the `/cart/:id` path the routes read, the id written as its decimal
  text. These lemmas state which of the pages' requests the routes accept,
  and what the routes then do. The add is accepted only by the intended POST
  body (`AddLogic`); the POST route as written answers 500 to it.
 */
module ClientFlows {
  import opened Wrappers
  import opened JsValues
  import opened ClientModel
  import opened CartStore
  import opened CartRoutes
  import CartProperties
  import CartPage
  import Navbar
  import ProductsPage

  /**
    "Add to Cart" on the products page, by a logged-in user, for a product
    of the catalog whose id is not 0 (the route refuses a falsy `productId`
    with 400, line 65 of server/routes/cart.routes.js): the intended POST body (`AddLogic`) accepts the add it
    dispatches with 201, and the caller's cart then holds exactly one more of
    that product, whether the row was merged into or created.
   */
  lemma AddToCartAccepted(u: UserId, p: ProductId, db: Db, catalog: set<ProductId>)
    requires Valid(db) && p != 0 && p in catalog
    ensures var e := ProductsPage.HandleAddToCart(true, p);
      && |e.actions| == 1
      && e.actions[0].AddToCart?
      && var r := AddLogic(Some(u), Number(e.actions[0].productId), Number(e.actions[0].quantity), db, catalog);
      && r.reply.status == Created
      && QuantityOf(r.db, u, p) == QuantityOf(db, u, p) + 1
  {
    var r := AddLogic(Some(u), Number(p), Number(1), db, catalog);
    CartProperties.AddLogicEffect(u, Number(p), Number(1), db, catalog);
    CartProperties.AddLogicPreservesValid(Some(u), Number(p), Number(1), db, catalog);
    match FindLine(db, u, p)
    case Some(id) =>
      assert r.db.lines[id] == CartLine(u, p, db.lines[id].quantity + 1);
      FindLineFindsTheLine(r.db, u, p, id);
    case None =>
      assert r.db.lines[db.nextId] == CartLine(u, p, 1);
      FindLineFindsTheLine(r.db, u, p, db.nextId);
  }

  /**
    The same click as a whole request: the dispatched add, sent with the
    caller's bearer token, for a catalog product whose id is not 0. The service with the intended POST answers 201
    and adds one of the product to the caller's cart; the service as written
    answers 500 and adds nothing.
   */
  lemma AddToCartOverTheWire(token: string, verify: Identity.Verifier, u: UserId, p: ProductId, db: Db, catalog: set<ProductId>)
    requires ' ' !in token && verify(token) == Some(Identity.Payload(u)) && Truthy(u)
    requires Valid(db) && p != 0 && p in catalog
    ensures var a := ProductsPage.HandleAddToCart(true, p).actions[0];
      var req := Request(Post, Some(Identity.BearerHeader(token)), Body(Number(a.productId), Number(a.quantity)));
      var intended := Handle(req, verify, db, catalog);
      && intended.reply.status == Created
      && QuantityOf(intended.db, u, p) == QuantityOf(db, u, p) + 1
      && HandleAsWritten(req, verify, db, catalog) == Refuse(ServerError, db)
  {
    Identity.BearerHeaderRoundTrip(token, verify);
    AddToCartAccepted(u, p, db, catalog);
  }

  /**
    A quantity the cart page sends for one of the caller's own rows is
    accepted by PUT with 200, and the row then holds exactly that quantity.
   */
  lemma QuantityUpdateAccepted(u: UserId, item: CartItem, text: string, db: Db)
    requires Owns(db, item.id, u)
    ensures forall a :: a in CartPage.HandleQuantityChange(item, text) ==>
      && a.UpdateCartItem?
      && a.id == item.id
      && var r := PutCartItem(Some(u), IntToString(item.id), Number(a.quantity), db);
      && r.reply.status == Ok
      && r.db.lines[item.id].quantity == a.quantity
  {
    forall a | a in CartPage.HandleQuantityChange(item, text)
      ensures a.UpdateCartItem? && a.id == item.id
      ensures var r := PutCartItem(Some(u), IntToString(item.id), Number(a.quantity), db);
        r.reply.status == Ok && r.db.lines[item.id].quantity == a.quantity
    {
      CartProperties.UpdateReplaces(u, item.id, a.quantity, db);
    }
  }

  /**
    The remove button of one of the caller's own rows sends a DELETE that
    answers 200, after which the row is gone.
   */
  lemma RemoveAccepted(u: UserId, item: CartItem, db: Db)
    requires Owns(db, item.id, u)
    ensures CartPage.OnEvent(CartPage.RemoveClicked(item)) == [Action.DeleteCartItem(item.id)]
    ensures var r := CartRoutes.DeleteCartItem(Some(u), IntToString(item.id), db);
      && r.reply.status == Ok
      && item.id !in r.db.lines
  {
    StringToNumberOfIntToString(item.id);
  }

  /** The clear button sends a DELETE of the whole cart that answers 200 and leaves the caller no rows */
  lemma ClearAccepted(u: UserId, db: Db)
    ensures CartPage.OnEvent(CartPage.ClearClicked) == [ClearCart]
    ensures var r := DeleteCart(Some(u), db);
      && r.reply.status == Ok
      && LinesOf(r.db.lines, u) == map[]
  {
    assert LinesOf(DeleteCart(Some(u), db).db.lines, u) == map[];
  }

  /**
    The two pages agree on who has a cart: for a logged-in user the products
    page offers "Add to Cart" exactly when the navigation bar shows the cart
    button, and admin controls exactly when it does not.
   */
  lemma RolesAgree(user: Option<User>)
    ensures ProductsPage.AddToCartShown(user) <==> Navbar.CartButtonShown(true, user)
    ensures ProductsPage.AdminControlsShown(user) <==> !Navbar.CartButtonShown(true, user)
    ensures ProductsPage.AddToCartShown(user) <==> user.None? || user.value.role != "admin"
  {
  }

  /**
    The cart page and the badge agree: once loaded without an error, the
    page shows the empty-cart view exactly when a user who sees the cart
    button sees no badge, given quantities of at least 1 as the server keeps
    them.
   */
  lemma EmptyViewIffNoBadge(user: Option<User>, items: seq<CartItem>)
    requires Navbar.CartButtonShown(true, user)
    requires forall i :: i in items ==> i.quantity >= 1
    ensures CartPage.Render(false, None, items).EmptyView? <==>
      !Navbar.BadgeShown(true, user, Some(Navbar.CartSlice(Some(items))))
  {
    Navbar.CartCountProperties(true, user, Some(Navbar.CartSlice(Some(items))));
  }
}

=== FILE: ClientModel.dfy ===
/**
  The client-side state the pages read from the Redux store, and the actions
  they dispatch. The slices and thunks themselves are not part of this model:
  an action here is only the request a handler issues.
 */
module ClientModel {
  import opened Wrappers

  /** The `Product` joined onto a cart row by GET /cart */
  datatype ProductInfo = ProductInfo(name: string, price: int)

  /** A cart row as the client holds it; `product` is `None` when the join found no product */
  datatype CartItem = CartItem(id: int, quantity: int, product: Option<ProductInfo>)

  /** The logged-in user of the user slice */
  datatype User = User(role: string)

  /** `user?.role === 'admin'` */
  predicate IsAdmin(user: Option<User>) {
    user.Some? && user.value.role == "admin"
  }

  /** The thunks and reducers the pages dispatch */
  datatype Action =
    | FetchCart
    | UpdateCartItem(id: int, quantity: int)
    | DeleteCartItem(id: int)
    | ClearCart
    | AddToCart(productId: int, quantity: int)
    | Logout

  /** What a click does: the actions dispatched and the page navigated to, if any */
  datatype ClickEffect = ClickEffect(actions: seq<Action>, navigateTo: Option<string>)

  /**
    Whether the user is still logged in after `actions`: the auth slice's
    `logout` reducer (not part of this model) is taken to clear the flag.
   */
  predicate LoggedInAfter(loggedIn: bool, actions: seq<Action>) {
    loggedIn && Logout !in actions
  }
}

=== FILE: Identity.dfy ===
/**
  `getUserIdFromRequest` (server/routes/cart.routes.js): the user id carried by
  an `Authorization: Bearer <token>` header, or no identity at all.

  The signature and expiry check of `jwt.verify` is not modelled: it is the
  parameter `verify`, which yields the decoded payload or `None` where the
  library throws.
 */
module Identity {
  import opened Wrappers
  import opened JsValues

  /** The id the login route signs into the token (any JSON value the payload holds) */
  type UserId = Value

  /** A decoded token payload; only its `id` is read here */
  datatype Payload = Payload(id: Value)

  /** `jwt.verify(token, secret)`: the payload, or `None` when verification throws */
  type Verifier = string -> Option<Payload>

  /** The number of occurrences of `c` in `s` */
  function Occurrences(s: string, c: char): nat {
    if s == [] then 0 else (if s[0] == c then 1 else 0) + Occurrences(s[1..], c)
  }

  /** `parts.join(sep)` */
  function Join(parts: seq<string>, sep: char): string
    requires |parts| >= 1
  {
    if |parts| == 1 then parts[0] else parts[0] + [sep] + Join(parts[1..], sep)
  }

  /**
    `s.split(sep)` for a one-character separator: the maximal separator-free
    pieces between separators, empty pieces included, so that joining them
    back gives `s`.
   */
  function Split(s: string, sep: char): (parts: seq<string>)
    ensures |parts| == Occurrences(s, sep) + 1
    ensures forall i :: 0 <= i < |parts| ==> sep !in parts[i]
    ensures Join(parts, sep) == s
  {
    if s == [] then [""]
    else
      var rest := Split(s[1..], sep);
      if s[0] == sep then
        assert [""] + rest == [""] + rest[..1] + rest[1..];
        [""] + rest
      else
        var parts := [[s[0]] + rest[0]] + rest[1..];
        assert parts[1..] == rest[1..];
        parts
  }

  /** Two separator-free pieces around one separator split back into those pieces */
  lemma {:induction false} SplitAroundOneSeparator(a: string, b: string, sep: char)
    requires sep !in a && sep !in b
    ensures Split(a + [sep] + b, sep) == [a, b]
  {
    var s := a + [sep] + b;
    if a == [] {
      assert s[1..] == b;
      SplitWithoutSeparator(b, sep);
    } else {
      assert s[1..] == a[1..] + [sep] + b;
      SplitAroundOneSeparator(a[1..], b, sep);
      assert [a[0]] + a[1..] == a;
    }
  }

  /** Text without the separator splits into itself alone */
  lemma {:induction false} SplitWithoutSeparator(s: string, sep: char)
    requires sep !in s
    ensures Split(s, sep) == [s]
  {
    if s != [] {
      SplitWithoutSeparator(s[1..], sep);
    }
  }

  const Scheme: string := "Bearer"

  /**
    The user id of a request whose `Authorization` header is `authorization`.
    A missing or empty header, a header that does not split on ' ' into
    exactly two parts, a scheme other than `Bearer`, a token that fails
    verification and a falsy payload id all give `None`; nothing throws.
   */
  function UserIdFromHeader(authorization: Option<string>, verify: Verifier): (r: Option<UserId>)
    ensures r.Some? ==> Truthy(r.value)
  {
    match authorization
    case None => None
    case Some(header) =>
      if !Truthy(Str(header)) then None
      else
        var parts := Split(header, ' ');
        if |parts| != 2 then None
        else if parts[0] != Scheme then None
        else
          match verify(parts[1])
          case None => None
          case Some(payload) => if Truthy(payload.id) then Some(payload.id) else None
  }

  /** The header `Bearer <token>` */
  function BearerHeader(token: string): string {
    Scheme + " " + token
  }

  /**
    A request has an identity exactly when its header is `Bearer ` followed
    by a token without spaces that verifies to a payload with a truthy id,
    and that id is the identity.
   */
  lemma UserIdFromHeaderIff(authorization: Option<string>, verify: Verifier)
    ensures UserIdFromHeader(authorization, verify).Some? <==>
      && authorization.Some?
      && |authorization.value| >= 7
      && authorization.value == BearerHeader(authorization.value[7..])
      && ' ' !in authorization.value[7..]
      && verify(authorization.value[7..]).Some?
      && Truthy(verify(authorization.value[7..]).value.id)
    ensures UserIdFromHeader(authorization, verify).Some? ==>
      UserIdFromHeader(authorization, verify).value == verify(authorization.value[7..]).value.id
  {
    if authorization.Some? {
      var header := authorization.value;
      var parts := Split(header, ' ');
      if |parts| == 2 && parts[0] == Scheme {
        assert Join(parts[1..], ' ') == parts[1];
        assert header == Scheme + " " + parts[1];
        assert header[7..] == parts[1];
      }
      if |header| >= 7 && header == BearerHeader(header[7..]) && ' ' !in header[7..] {
        SplitAroundOneSeparator(Scheme, header[7..], ' ');
      }
    }
  }

  /** A well-formed bearer header yields the id its token verifies to, if truthy */
  lemma BearerHeaderRoundTrip(token: string, verify: Verifier)
    requires ' ' !in token
    ensures UserIdFromHeader(Some(BearerHeader(token)), verify) ==
      match verify(token)
      case Some(p) => if Truthy(p.id) then Some(p.id) else None
      case None => None
  {
    SplitAroundOneSeparator(Scheme, token, ' ');
  }

  /**
    The rejections one by one: no header; a header with two spaces or more
    (so `Bearer  t` with a double space fails); a scheme spelt differently,
    letter case included; a token that does not verify; a falsy id.
   */
  lemma UserIdFromHeaderRejects(authorization: Option<string>, verify: Verifier)
    ensures authorization.None? ==> UserIdFromHeader(authorization, verify).None?
    ensures authorization.Some? && Occurrences(authorization.value, ' ') != 1 ==>
      UserIdFromHeader(authorization, verify).None?
    ensures authorization.Some? && !(|authorization.value| >= 7 && authorization.value[..7] == "Bearer ") ==>
      UserIdFromHeader(authorization, verify).None?
    ensures UserIdFromHeader(Some("bearer t"), verify).None?
    ensures authorization.Some? && |authorization.value| >= 7 ==>
      match verify(authorization.value[7..])
      case Some(p) => !Truthy(p.id) ==> UserIdFromHeader(authorization, verify).None?
      case None => UserIdFromHeader(authorization, verify).None?
  {
    UserIdFromHeaderIff(authorization, verify);
    UserIdFromHeaderIff(Some("bearer t"), verify);
    assert "bearer t"[..7] != "Bearer ";
    if authorization.Some? && UserIdFromHeader(authorization, verify).Some? {
      var header := authorization.value;
      assert header == Scheme + [' '] + header[7..];
      SplitAroundOneSeparator(Scheme, header[7..], ' ');
    }
  }
}

=== FILE: JsValues.dfy ===
/**
  The few JavaScript coercions the cart code relies on: truthiness (`!x`,
  `x || y`), `Number(x)` and `isNaN(x)` on request values, `parseInt(s, 10)`
  on input-field text, and the decimal text of an integer.

  Numbers are integers; `NaN` is kept apart as a value of its own.
 */
module JsValues {
  import opened Wrappers

  /**
    The scalar values the handlers read from a parsed JSON body, a route
    parameter or a token payload. Arrays and objects are not modelled.
   */
  datatype Value = Undefined | Null | Bool(b: bool) | Number(n: int) | NaN | Str(s: string)

  /** ToBoolean: false exactly for `undefined`, `null`, `false`, `0`, `NaN` and `""` */
  predicate Truthy(v: Value) {
    match v
    case Undefined => false
    case Null => false
    case Bool(b) => b
    case Number(n) => n != 0
    case NaN => false
    case Str(s) => s != ""
  }

  /** `a || b`: the first operand when it is truthy, else the second */
  function Or(a: Value, b: Value): Value {
    if Truthy(a) then a else b
  }

  /** The white space the model recognises around numeric text */
  predicate IsSpace(c: char) {
    c == ' ' || c == '\t' || c == '\n' || c == '\r'
  }

  predicate IsDigit(c: char) {
    '0' <= c <= '9'
  }

  predicate AllDigits(s: string) {
    forall i :: 0 <= i < |s| ==> IsDigit(s[i])
  }

  function DigitValue(c: char): nat
    requires IsDigit(c)
  {
    (c as int) - ('0' as int)
  }

  function DigitChar(d: nat): (c: char)
    requires d < 10
    ensures IsDigit(c) && DigitValue(c) == d
  {
    (('0' as int) + d) as char
  }

  /** The value of a run of decimal digits, read most significant first */
  function DigitsValue(ds: string): nat
    requires AllDigits(ds)
  {
    if |ds| == 0 then 0
    else DigitsValue(ds[..|ds| - 1]) * 10 + DigitValue(ds[|ds| - 1])
  }

  /** `s` without its leading white space */
  function TrimStart(s: string): (t: string)
    ensures |t| <= |s| && t == s[|s| - |t|..]
    ensures t == "" || !IsSpace(t[0])
  {
    if |s| > 0 && IsSpace(s[0]) then TrimStart(s[1..]) else s
  }

  /** `s` without its trailing white space */
  function TrimEnd(s: string): (t: string)
    ensures |t| <= |s| && t == s[..|t|]
    ensures t == "" || !IsSpace(t[|t| - 1])
  {
    if |s| > 0 && IsSpace(s[|s| - 1]) then TrimEnd(s[..|s| - 1]) else s
  }

  /** An optionally signed, non-empty run of decimal digits, and nothing else */
  function SignedInteger(t: string): Option<int> {
    if |t| > 0 && (t[0] == '+' || t[0] == '-') then
      var ds := t[1..];
      if ds != "" && AllDigits(ds) then
        Some(if t[0] == '-' then -(DigitsValue(ds) as int) else DigitsValue(ds))
      else None
    else if t != "" && AllDigits(t) then Some(DigitsValue(t))
    else None
  }

  /** `Number(s)` for a string: surrounding white space is ignored and blank text is 0; `None` is NaN */
  function StringToNumber(s: string): Option<int> {
    var t := TrimEnd(TrimStart(s));
    if t == "" then Some(0) else SignedInteger(t)
  }

  /** `Number(v)`; `None` is NaN */
  function ToNumber(v: Value): Option<int> {
    match v
    case Undefined => None
    case Null => Some(0)
    case Bool(b) => Some(if b then 1 else 0)
    case Number(n) => Some(n)
    case NaN => None
    case Str(s) => StringToNumber(s)
  }

  /** The global `isNaN(v)`, which coerces its argument with `Number` first */
  predicate IsNaN(v: Value) {
    ToNumber(v).None?
  }

  /** The longest prefix of `s` made of decimal digits */
  function LeadingDigits(s: string): (ds: string)
    ensures ds <= s && AllDigits(ds)
    ensures |ds| == |s| || !IsDigit(s[|ds|])
  {
    if |s| > 0 && IsDigit(s[0]) then [s[0]] + LeadingDigits(s[1..]) else ""
  }

  /** The value of the digits `s` starts with; `None` when it starts with none */
  function LeadingValue(s: string): Option<int> {
    var ds := LeadingDigits(s);
    if ds == "" then None else Some(DigitsValue(ds))
  }

  function Negate(n: Option<int>): Option<int> {
    match n
    case Some(v) => Some(-v)
    case None => None
  }

  /** One optional sign, then the leading digits */
  function ParseSigned(t: string): Option<int> {
    if |t| > 0 && t[0] == '-' then Negate(LeadingValue(t[1..]))
    else if |t| > 0 && t[0] == '+' then LeadingValue(t[1..])
    else LeadingValue(t)
  }

  /**
    `parseInt(s, 10)`: leading white space is skipped, one sign is read, then
    as many decimal digits as follow; anything after them is ignored, and no
    digit at all is NaN (`None`).
   */
  function ParseInt(s: string): Option<int> {
    ParseSigned(TrimStart(s))
  }

  /** The decimal text of a natural number, without leading zeros */
  function NatToString(n: nat): (s: string)
    ensures s != "" && AllDigits(s)
  {
    if n < 10 then [DigitChar(n)] else NatToString(n / 10) + [DigitChar(n % 10)]
  }

  /** `String(n)` for an integer */
  function IntToString(n: int): string {
    if n < 0 then "-" + NatToString(-n) else NatToString(n)
  }

  /** Reading back the digits of `NatToString(n)` gives `n` */
  lemma {:induction false} DigitsValueOfNatToString(n: nat)
    ensures DigitsValue(NatToString(n)) == n
  {
    if n >= 10 {
      DigitsValueOfNatToString(n / 10);
      var s := NatToString(n);
      assert s[..|s| - 1] == NatToString(n / 10);
    }
  }

  /** The digit prefix of a digit run followed by a non-digit is the run itself */
  lemma {:induction false} LeadingDigitsOfDigits(ds: string, rest: string)
    requires AllDigits(ds)
    requires rest == "" || !IsDigit(rest[0])
    ensures LeadingDigits(ds + rest) == ds
  {
    if ds != "" {
      assert (ds + rest)[1..] == ds[1..] + rest;
      LeadingDigitsOfDigits(ds[1..], rest);
    }
  }

  lemma TrimStartOfUnspaced(s: string)
    requires s != "" && !IsSpace(s[0])
    ensures TrimStart(s) == s
  {}

  /** The leading value of a digit run followed by a non-digit is the run's value */
  lemma LeadingValueOfDigits(digits: string, rest: string)
    requires digits != "" && AllDigits(digits)
    requires rest == "" || !IsDigit(rest[0])
    ensures LeadingValue(digits + rest) == Some(DigitsValue(digits) as int)
  {
    LeadingDigitsOfDigits(digits, rest);
  }

  /** `parseInt` of a digit run, optionally preceded by a minus sign, followed by a non-digit */
  lemma {:induction false} ParseIntOfDigits(negative: bool, digits: string, rest: string)
    requires digits != "" && AllDigits(digits)
    requires rest == "" || !IsDigit(rest[0])
    ensures var v := DigitsValue(digits) as int;
      ParseInt((if negative then "-" else "") + digits + rest) == Some(if negative then -v else v)
  {
    var s := (if negative then "-" else "") + digits + rest;
    LeadingValueOfDigits(digits, rest);
    if negative {
      assert s[0] == '-';
      assert s[1..] == digits + rest;
      TrimStartOfUnspaced(s);
      assert ParseSigned(s) == Negate(LeadingValue(digits + rest));
    } else {
      assert s == digits + rest;
      assert IsDigit(s[0]);
      TrimStartOfUnspaced(s);
      assert ParseSigned(s) == LeadingValue(digits + rest);
    }
  }

  /**
    `parseInt` reads back the text of any integer, whatever non-digit text
    follows it: `parseInt("2.7", 10)` is 2.
   */
  lemma {:induction false} ParseIntOfIntToString(n: int, rest: string)
    requires rest == "" || !IsDigit(rest[0])
    ensures ParseInt(IntToString(n) + rest) == Some(n)
  {
    var negative := n < 0;
    var m: nat := if negative then -n else n;
    var digits := NatToString(m);
    assert IntToString(n) + rest == (if negative then "-" else "") + digits + rest;
    DigitsValueOfNatToString(m);
    ParseIntOfDigits(negative, digits, rest);
  }

  lemma TrimEndOfUnspaced(s: string)
    requires s != "" && !IsSpace(s[|s| - 1])
    ensures TrimEnd(s) == s
  {}

  /** A digit run, optionally preceded by a minus sign, is a signed integer */
  lemma SignedIntegerOfDigits(negative: bool, digits: string)
    requires digits != "" && AllDigits(digits)
    ensures var v := DigitsValue(digits) as int;
      SignedInteger((if negative then "-" else "") + digits) == Some(if negative then -v else v)
  {
    if negative {
      var s := "-" + digits;
      var ds := s[1..];
      assert ds == digits;
      assert ds != "" && AllDigits(ds);
      assert SignedInteger(s) == Some(-(DigitsValue(ds) as int));
    } else {
      assert digits[0] != '+' && digits[0] != '-';
      assert SignedInteger(digits) == Some(DigitsValue(digits) as int);
      assert "" + digits == digits;
    }
  }

  /** `Number` of a digit run, optionally preceded by a minus sign */
  lemma {:induction false} StringToNumberOfDigits(negative: bool, digits: string)
    requires digits != "" && AllDigits(digits)
    ensures var v := DigitsValue(digits) as int;
      StringToNumber((if negative then "-" else "") + digits) == Some(if negative then -v else v)
  {
    var s := (if negative then "-" else "") + digits;
    assert s[|s| - 1] == digits[|digits| - 1];
    assert s[0] == '-' || s[0] == digits[0];
    TrimStartOfUnspaced(s);
    TrimEndOfUnspaced(s);
    SignedIntegerOfDigits(negative, digits);
  }

  /** `Number` reads back the text of any integer */
  lemma {:induction false} StringToNumberOfIntToString(n: int)
    ensures StringToNumber(IntToString(n)) == Some(n)
  {
    var negative := n < 0;
    var m: nat := if negative then -n else n;
    var digits := NatToString(m);
    assert IntToString(n) == (if negative then "-" else "") + digits;
    DigitsValueOfNatToString(m);
    StringToNumberOfDigits(negative, digits);
  }

  /** `parseInt` stops at the decimal point: the text "2.7" reads as 2 */
  lemma ParseIntStopsAtPoint()
    ensures ParseInt("2.7") == Some(2)
  {
    var s := "2.7";
    assert s == "2" + ".7";
    assert DigitsValue("2") == 2;
    LeadingValueOfDigits("2", ".7");
    TrimStartOfUnspaced(s);
  }
}

=== FILE: Navbar.dfy ===
/**
  The pure logic of client/src/components/Navbar.jsx: the cart badge count,
  who sees the cart button (and has the cart fetched on mount), which link is
  highlighted, and what the sign-in/sign-out entry does.
 */
module Navbar {
  import opened Wrappers
  import opened Seqs
  import opened ClientModel

  /** The cart slice of the store; either it or its `items` may be missing */
  datatype CartSlice = CartSlice(items: Option<seq<CartItem>>)

  /** `state.cart?.items || []` */
  function CartItemsOf(cart: Option<CartSlice>): (items: seq<CartItem>)
    ensures cart.None? ==> items == []
    ensures cart.Some? && cart.value.items.None? ==> items == []
    ensures cart.Some? && cart.value.items.Some? ==> items == cart.value.items.value
  {
    match cart
    case None => []
    case Some(slice) => slice.items.GetOr([])
  }

  function ItemQuantity(item: CartItem): int {
    item.quantity
  }

  /** `cartItems.reduce((sum, item) => sum + item.quantity, 0)` */
  function CartCount(cart: Option<CartSlice>): int {
    SumOf(CartItemsOf(cart), ItemQuantity)
  }

  /** `loggedIn && !isAdmin`: the cart button is rendered */
  predicate CartButtonShown(loggedIn: bool, user: Option<User>) {
    loggedIn && !IsAdmin(user)
  }

  /** The badge `{cartCount > 0 && ...}`, which sits inside the cart button */
  predicate BadgeShown(loggedIn: bool, user: Option<User>, cart: Option<CartSlice>) {
    CartButtonShown(loggedIn, user) && CartCount(cart) > 0
  }

  /**
    The count is the total of the item quantities, 0 when the slice or its
    list is missing. No badge is shown without the cart button. When every
    quantity is at least 1, as the server keeps them, the count is at least
    the number of rows, so for a user who sees the cart button the badge
    shows exactly when the cart has a row.
   */
  lemma CartCountProperties(loggedIn: bool, user: Option<User>, cart: Option<CartSlice>)
    ensures cart.None? || cart.value.items.None? ==> CartCount(cart) == 0 && !BadgeShown(loggedIn, user, cart)
    ensures !CartButtonShown(loggedIn, user) ==> !BadgeShown(loggedIn, user, cart)
    ensures (forall i :: i in CartItemsOf(cart) ==> i.quantity >= 1) ==>
      && CartCount(cart) >= |CartItemsOf(cart)|
      && (BadgeShown(loggedIn, user, cart) <==> CartButtonShown(loggedIn, user) && CartItemsOf(cart) != [])
  {
    var items := CartItemsOf(cart);
    if forall i :: i in items ==> i.quantity >= 1 {
      SumOfAtLeast(items, ItemQuantity, 1);
    }
  }

  /** The count the badge shows grows by exactly an added row's quantity */
  lemma CartCountOfAppend(items: seq<CartItem>, item: CartItem)
    ensures CartCount(Some(CartSlice(Some(items + [item])))) == CartCount(Some(CartSlice(Some(items)))) + item.quantity
  {
    SumOfAppend(items, [item], ItemQuantity);
    assert SumOf([item], ItemQuantity) == SumOf([], ItemQuantity) + item.quantity;
  }

  /**
    The cart-fetch effect: `fetchCart()` when logged in and not an admin. It
    runs on mount and again whenever `loggedIn` or `isAdmin` changes (its
    dependency list); each run dispatches what this function returns for the
    current values.
   */
  function MountEffects(loggedIn: bool, user: Option<User>): (actions: seq<Action>)
    ensures actions == [] || actions == [FetchCart]
    ensures actions == [FetchCart] <==> CartButtonShown(loggedIn, user)
  {
    if loggedIn && !IsAdmin(user) then [FetchCart] else []
  }

  /** Whenever a badge is on screen, its cart was fetched on mount */
  lemma BadgeOnlyAfterFetch(loggedIn: bool, user: Option<User>, cart: Option<CartSlice>)
    ensures BadgeShown(loggedIn, user, cart) ==> MountEffects(loggedIn, user) == [FetchCart]
    ensures MountEffects(loggedIn, user) == [] ==> !BadgeShown(loggedIn, user, cart)
  {
  }

  datatype NavLink = NavLink(name: string, href: string)

  /** The `navigation` list */
  const Navigation: seq<NavLink> := [NavLink("Homepage", "/"), NavLink("Products", "/products")]

  /** `isActive(href)`: the current path is exactly `href` */
  predicate IsActive(pathname: string, href: string) {
    pathname == href
  }

  /** No two links share an `href` */
  predicate DistinctHrefs(links: seq<NavLink>) {
    forall i, j :: 0 <= i < j < |links| ==> links[i].href != links[j].href
  }

  /** With exact path equality, a list of links with distinct `href`s highlights at most one, whatever the path */
  lemma AtMostOneActive(links: seq<NavLink>, pathname: string)
    requires DistinctHrefs(links)
    ensures forall i, j :: 0 <= i < |links| && 0 <= j < |links| ==>
      (IsActive(pathname, links[i].href) && IsActive(pathname, links[j].href) ==> i == j)
  {
  }

  /**
    The navigation list highlights at most one link, and the link is
    highlighted only on its exact path: `/products/`, with a trailing slash,
    highlights neither.
   */
  lemma NavigationHighlightsAtMostOne(pathname: string)
    ensures forall i, j :: 0 <= i < |Navigation| && 0 <= j < |Navigation| ==>
      (IsActive(pathname, Navigation[i].href) && IsActive(pathname, Navigation[j].href) ==> i == j)
    ensures forall i :: 0 <= i < |Navigation| ==> !IsActive("/products/", Navigation[i].href)
  {
    AtMostOneActive(Navigation, pathname);
  }

  /** `handleAuthClick`: sign out and go home when logged in, else go to the login page */
  function HandleAuthClick(loggedIn: bool): (e: ClickEffect)
    ensures loggedIn ==> e == ClickEffect([Logout], Some("/"))
    ensures !loggedIn ==> e == ClickEffect([], Some("/login"))
  {
    if loggedIn then ClickEffect([Logout], Some("/")) else ClickEffect([], Some("/login"))
  }

  /**
    The sign-in/sign-out entry toggles: signing out leaves the user logged
    out, with no cart button and no badge whatever the cart holds, and the
    next click of the entry leads to the login page without dispatching.
   */
  lemma AuthClickSignsOut(user: Option<User>, cart: Option<CartSlice>)
    ensures var after := LoggedInAfter(true, HandleAuthClick(true).actions);
      && !after
      && !CartButtonShown(after, user)
      && !BadgeShown(after, user, cart)
      && MountEffects(after, user) == []
      && HandleAuthClick(after) == ClickEffect([], Some("/login"))
    ensures !LoggedInAfter(false, HandleAuthClick(false).actions)
  {
  }
}

=== FILE: ProductsPage.dfy ===
/**
  The pure logic of client/src/pages/ProductsPage.jsx: the category list and
  filter, the add-to-cart login gate, the list update after a delete, and
  which buttons each role sees.
 */
module ProductsPage {
  import opened Wrappers
  import opened Seqs
  import opened ClientModel

  datatype Product = Product(id: int, name: string, category: string, price: int)

  /** The pseudo-category that selects everything */
  const All: string := "All"

  /** `products.map((p) => p.category)` */
  function CategoriesOf(products: seq<Product>): (cs: seq<string>)
    ensures |cs| == |products|
    ensures forall i :: 0 <= i < |products| ==> cs[i] == products[i].category
  {
    seq(|products|, i requires 0 <= i < |products| => products[i].category)
  }

  /**
    `['All', ...new Set(products.map((p) => p.category))]` (line 115). The
    `<select>` of lines 146-151 does not read this constant: it builds the
    same `new Set` again and writes the `All` option out by hand, so its
    option values are this same list.
   */
  function Categories(products: seq<Product>): seq<string> {
    [All] + Distinct(CategoriesOf(products))
  }

  /**
    The category list is `All` followed by each category of the products
    once, in the order the categories first occur in the product list.
    (A product whose category is itself `All` puts `All` in twice.)
   */
  lemma CategoriesListed(products: seq<Product>)
    ensures var cs := Categories(products);
      && cs[0] == All
      && (forall i :: 0 <= i < |products| ==> products[i].category in cs[1..])
      && (forall c :: c in cs[1..] ==> c in CategoriesOf(products))
      && NoDuplicates(cs[1..])
      && (forall i, j :: 1 <= i < j < |cs| ==>
            FirstIndex(CategoriesOf(products), cs[i]) < FirstIndex(CategoriesOf(products), cs[j]))
  {
    var cs := Categories(products);
    var names := CategoriesOf(products);
    assert cs[1..] == Distinct(names);
    DistinctFirstOccurrenceOrder(names);
    forall i | 0 <= i < |products|
      ensures products[i].category in cs[1..]
    {
      assert names[i] in names;
    }
    forall i, j | 1 <= i < j < |cs|
      ensures FirstIndex(names, cs[i]) < FirstIndex(names, cs[j])
    {
      assert cs[i] == Distinct(names)[i - 1] && cs[j] == Distinct(names)[j - 1];
    }
  }

  /** `filteredProducts`: everything for `All`, otherwise the products of the selected category */
  function FilteredProducts(products: seq<Product>, selected: string): seq<Product> {
    if selected == All then products else Filter(products, (p: Product) => p.category == selected)
  }

  /** The list the grid renders: `products.filter((p) => selected === 'All' || p.category === selected)` */
  function ShownProducts(products: seq<Product>, selected: string): seq<Product> {
    Filter(products, (p: Product) => selected == All || p.category == selected)
  }

  /**
    For `All` the filter keeps the list as it is; for any other category it
    keeps exactly the products of that category, each as often as it occurs,
    in their original order. The grid's inline filter computes the same list.
   */
  lemma CategoryFilter(products: seq<Product>, selected: string)
    ensures selected == All ==> FilteredProducts(products, selected) == products
    ensures selected != All ==>
      var r := FilteredProducts(products, selected);
      && (forall p :: p in r ==> p.category == selected)
      && (forall p: Product :: p.category == selected ==> multiset(r)[p] == multiset(products)[p])
      && IsSubsequence(r, products)
    ensures ShownProducts(products, selected) == FilteredProducts(products, selected)
  {
    if selected == All {
      FilterKeepsAll(products, (p: Product) => selected == All || p.category == selected);
    } else {
      FilterAgrees(products, (p: Product) => selected == All || p.category == selected,
        (p: Product) => p.category == selected);
    }
  }

  /**
    `handleAddToCart`: logged out, nothing is dispatched and the user is sent
    to the login page; logged in, one add of that product with quantity 1.
   */
  function HandleAddToCart(loggedIn: bool, productId: int): (e: ClickEffect)
    ensures !loggedIn ==> e.actions == [] && e.navigateTo == Some("/login")
    ensures loggedIn ==> e.navigateTo.None? && e.actions == [AddToCart(productId, 1)]
  {
    if !loggedIn then ClickEffect([], Some("/login"))
    else ClickEffect([AddToCart(productId, 1)], None)
  }

  /** How the delete request came back: `response?.success` truthy, falsy, or the call threw */
  datatype DeleteResponse = Succeeded | Failed | Threw

  /**
    `handleDeleteClick`: the product list after the confirm dialog and the
    delete request.
   */
  function HandleDeleteClick(products: seq<Product>, productId: int, confirmed: bool, response: DeleteResponse): seq<Product> {
    if !confirmed then products
    else if response == Succeeded then Filter(products, (p: Product) => p.id != productId)
    else products
  }

  /**
    A declined confirm or a failed or throwing request leaves the list as it
    was; a successful delete removes every product with that id and keeps the
    others, each as often as it occurred, in order.
   */
  lemma DeleteClickOutcome(products: seq<Product>, productId: int, confirmed: bool, response: DeleteResponse)
    ensures !confirmed || response != Succeeded ==> HandleDeleteClick(products, productId, confirmed, response) == products
    ensures confirmed && response == Succeeded ==>
      var r := HandleDeleteClick(products, productId, confirmed, response);
      && (forall p :: p in r ==> p.id != productId)
      && (forall p: Product :: p.id != productId ==> multiset(r)[p] == multiset(products)[p])
      && IsSubsequence(r, products)
      && (forall p :: p in products && p.id != productId ==> p in r)
  {
    if confirmed && response == Succeeded {
      var r := HandleDeleteClick(products, productId, confirmed, response);
      forall p | p in products && p.id != productId
        ensures p in r
      {
        assert multiset(r)[p] == multiset(products)[p] > 0;
      }
    }
  }

  /** The edit and delete buttons of a product card, and "Create Product" */
  predicate AdminControlsShown(user: Option<User>) {
    IsAdmin(user)
  }

  /** The "Add to Cart" button of a product card */
  predicate AddToCartShown(user: Option<User>) {
    !IsAdmin(user)
  }

  /** Every product card shows exactly one of the two: admin controls for admins, "Add to Cart" for everyone else */
  lemma ButtonsByRole(user: Option<User>)
    ensures AdminControlsShown(user) <==> !AddToCartShown(user)
    ensures AdminControlsShown(user) <==> user.Some? && user.value.role == "admin"
  {
  }
}

=== FILE: Seqs.dfy ===
/**
  The array operations the client code uses: `filter`, the order-keeping
  de-duplication of `new Set(...)`, and the summing `reduce`.
 */
module Seqs {

  /** `sub` is `s` with some elements deleted, the rest kept in order */
  predicate IsSubsequence<T(==)>(sub: seq<T>, s: seq<T>)
    decreases |s|
  {
    if sub == [] then true
    else if s == [] then false
    else if sub[0] == s[0] then IsSubsequence(sub[1..], s[1..])
    else IsSubsequence(sub, s[1..])
  }

  /** `s.filter(keep)`: every kept element, in order, with its multiplicity */
  function Filter<T(==,!new)>(s: seq<T>, keep: T -> bool): (r: seq<T>)
    ensures forall x :: x in r ==> keep(x)
    ensures forall x :: multiset(r)[x] == if keep(x) then multiset(s)[x] else 0
    ensures IsSubsequence(r, s)
  {
    if s == [] then []
    else
      assert s == [s[0]] + s[1..];
      var tail := Filter(s[1..], keep);
      if keep(s[0]) then [s[0]] + tail else tail
  }

  /** A filter whose test holds throughout keeps everything */
  lemma {:induction false} FilterKeepsAll<T(!new)>(s: seq<T>, keep: T -> bool)
    requires forall x :: x in s ==> keep(x)
    ensures Filter(s, keep) == s
  {
    if s != [] {
      FilterKeepsAll(s[1..], keep);
    }
  }

  /** Filters whose tests agree on the elements of `s` give the same result */
  lemma {:induction false} FilterAgrees<T(!new)>(s: seq<T>, keep: T -> bool, keep': T -> bool)
    requires forall x :: x in s ==> keep(x) == keep'(x)
    ensures Filter(s, keep) == Filter(s, keep')
  {
    if s != [] {
      FilterAgrees(s[1..], keep, keep');
    }
  }

  predicate NoDuplicates<T(==)>(s: seq<T>) {
    forall i, j :: 0 <= i < j < |s| ==> s[i] != s[j]
  }

  /** The position of the first occurrence of `x` in `s` */
  function FirstIndex<T(==)>(s: seq<T>, x: T): (k: nat)
    requires x in s
    ensures k < |s| && s[k] == x && x !in s[..k]
  {
    if s[0] == x then 0 else 1 + FirstIndex(s[1..], x)
  }

  /** Appending after `x` does not move its first occurrence */
  lemma {:induction false} FirstIndexOfPrefix<T>(s: seq<T>, y: T, x: T)
    requires x in s
    ensures FirstIndex(s + [y], x) == FirstIndex(s, x)
  {
    if s[0] != x {
      assert (s + [y])[1..] == s[1..] + [y];
      FirstIndexOfPrefix(s[1..], y, x);
    }
  }

  /** `[...new Set(s)]`: each distinct element once, at the place it first occurs */
  function Distinct<T(==,!new)>(s: seq<T>): (r: seq<T>)
    ensures forall x :: x in r <==> x in s
    ensures NoDuplicates(r)
  {
    if s == [] then []
    else
      var init := s[..|s| - 1];
      var last := s[|s| - 1];
      assert s == init + [last];
      var d := Distinct(init);
      if last in d then d else d + [last]
  }

  /** `Distinct` lists the elements in the order of their first occurrences */
  lemma {:induction false} DistinctFirstOccurrenceOrder<T(!new)>(s: seq<T>)
    ensures forall i, j :: 0 <= i < j < |Distinct(s)| ==>
      FirstIndex(s, Distinct(s)[i]) < FirstIndex(s, Distinct(s)[j])
  {
    if s != [] {
      var init := s[..|s| - 1];
      var last := s[|s| - 1];
      assert s == init + [last];
      var d := Distinct(init);
      DistinctFirstOccurrenceOrder(init);
      forall x | x in init
        ensures FirstIndex(s, x) == FirstIndex(init, x)
      {
        FirstIndexOfPrefix(init, last, x);
      }
      if last !in d {
        assert FirstIndex(s, last) == |init|;
      }
    }
  }

  /** `s.reduce((acc, x) => acc + f(x), 0)`, folded from the left */
  function SumOf<T>(s: seq<T>, f: T -> int): int {
    if s == [] then 0 else SumOf(s[..|s| - 1], f) + f(s[|s| - 1])
  }

  /** Summing is additive over concatenation */
  lemma {:induction false} SumOfAppend<T>(a: seq<T>, b: seq<T>, f: T -> int)
    ensures SumOf(a + b, f) == SumOf(a, f) + SumOf(b, f)
  {
    if b != [] {
      assert (a + b)[..|a + b| - 1] == a + b[..|b| - 1];
      SumOfAppend(a, b[..|b| - 1], f);
    } else {
      assert a + b == a;
    }
  }

  /** A sum of terms each at least `low` is at least `low` times the length */
  lemma {:induction false} SumOfAtLeast<T>(s: seq<T>, f: T -> int, low: int)
    requires forall x :: x in s ==> f(x) >= low
    ensures SumOf(s, f) >= low * |s|
  {
    if s != [] {
      SumOfAtLeast(s[..|s| - 1], f, low);
    }
  }

  /** A sum of terms each at most `high` is at most `high` times the length */
  lemma {:induction false} SumOfAtMost<T>(s: seq<T>, f: T -> int, high: int)
    requires forall x :: x in s ==> f(x) <= high
    ensures SumOf(s, f) <= high * |s|
  {
    if s != [] {
      SumOfAtMost(s[..|s| - 1], f, high);
    }
  }

  /** The left-to-right `reduce` loop computes `SumOf` */
  method Reduce<T>(s: seq<T>, f: T -> int) returns (acc: int)
    ensures acc == SumOf(s, f)
  {
    acc := 0;
    var i := 0;
    while i < |s|
      invariant 0 <= i <= |s|
      invariant acc == SumOf(s[..i], f)
    {
      assert s[..i + 1][..i] == s[..i];
      acc := acc + f(s[i]);
      i := i + 1;
    }
    assert s[..|s|] == s;
  }
}

=== FILE: Wrappers.dfy ===
/** An optional value, standing in for JavaScript's `null`/`undefined` results. */
module Wrappers {

  datatype Option<+T> = None | Some(value: T) {

    /** The wrapped value, or `default` when there is none */
    function GetOr(default: T): T {
      match this
      case Some(v) => v
      case None => default
    }
  }
}
